=== FILE: README.md ===
# prime_sieve in Dafny

A model of `src/prime_sieve.cpp`. The program finds primes by trial division
and keeps them in an append-only store on disk, sharded by byte width: the
file `primes/primes_<w>.bin` holds, in big-endian order, every saved prime
that needs exactly `w` bytes. The model covers four parts of the file:

- **Bit and byte widths, and the big-endian codec** (`codec.dfy`, module
  `Codec`).
  - `num_bits` is the index of the highest set bit.
  - `num_bytes` is `num_bits / 8 + 1`.
  - The byte loop of `save_primes` writes a value as that many bytes,
    most significant first.
  - The shift-or loop of `load_primes` reads a group of bytes back.
- **The store** (`store.dfy`, module `PrimeStore`, with its properties in
  `store_props.dfy`, module `StoreProperties`).
  - The `primes/` directory is a value: `Disk(dirExists, shards)`, where
    `shards` maps each width `w` whose file exists to that file's bytes.
  - Reading a file is a lookup. Appending to a file concatenates at its end,
    and creates the file when it is missing.
  - `load_primes` and `save_primes` are methods whose loops follow the
    source. Each is proved equal to a specification function (`LoadSpec`,
    `SaveSpec`), and the store's promises are proved about those functions.
- **Primes** (`primes.dfy`, module `Primes`).
  - `IsPrime` and `PrimesBelow(n)`: the ascending list of every prime below
    `n`, the list the search is meant to hold.
  - The facts trial division needs, among them that `fake_sqrt` squared
    exceeds the candidate.
- **The search in `main`** (`sieve.dfy`, module `Sieve`).
  - The resume point computed from the loaded store.
  - The odd-candidate loop with its early-exit trial division.
  - The checkpoint every `group_size` new primes, and the final save.
  - The whole run (`RunSieve`). From no store, or from the store a complete
    run up to some `n` leaves, it ends knowing exactly the primes below
    `0xFFFF'FFFF`, all of them laid out on disk. This rests on the primes
    skipping no byte width (`Sieve.PrimesGapless`: 257 and 65537 are prime), so
    that the loader's scan, which stops at the first missing width, reads
    every shard back.

The failing `assert`s of the source are error results
(`Errors.Error`):

- `WidthOutOfRange`: the width scan reaches a ninth shard (lines 19, 27, 73).
- `StoredZero` and `StoredOne`: a loaded value is 0 or 1 (lines 43-44).
- `EvenStart`: the resume candidate is even (line 106).

The width assertion of the save loop (line 82) has no error result: it cannot
fail, because `Codec.NumBytes` ensures `1 <= w <= 8` for every 64-bit value.

The resume candidate is computed as the source does it: the last stored
value plus 2, in 64-bit arithmetic. The code does not round that candidate
up to an odd number. It only asserts that it is odd, so an even last value
other than 2 fails with `EvenStart` (`Sieve.ResumeFailsOnEven`).

Two consequences of following the code:

- A stored last value of `2^64 - 1` wraps the candidate to 1, and the loop
  then tests 1. It finds no divisor for 1, so it pushes 1 as a prime. For this
  reason `Sieve.TrialDivide` promises soundness only as "a rejected candidate
  is composite, or 1 is among the known primes". `Sieve.Candidate` and
  `Sieve.Search` accept every odd candidate from 1 up.
- The program itself never writes such a value: it stops below `2^32`.

## Model

| member | source | states |
|---|---|---|
| `Codec.NumBits` | src/prime_sieve.cpp:49-57 | `num_bits(n)` is the index of the highest set bit: `2^b <= n < 2^(b+1)` for `n >= 1`, 0 for `n <= 1`, always below 64 |
| `Codec.NumBitsStep` | src/prime_sieve.cpp:52-54 | after looking at bit `i`, the kept index is the highest set bit among the low `i + 1` bits (the loop invariant of the scan) |
| `Codec.HighBitUnique` | src/prime_sieve.cpp:49-57 | the highest set bit is unique: any `b` with `2^b <= n < 2^(b+1)` is it |
| `Codec.HighBitMonotone` | src/prime_sieve.cpp:49-57 | a larger value never has a lower highest bit |
| `Codec.NumBytes` | src/prime_sieve.cpp:59-61 | `num_bytes(n)` is between 1 and 8 and `n < 2^(8 * num_bytes(n))` |
| `Codec.ByteWidthFits` | src/prime_sieve.cpp:59-61 | the width is 1 to 8, the value fits in it, and it needs every byte: `2^(8(w-1)) <= n` when `w > 1` |
| `Codec.ByteWidthIsLeast` | src/prime_sieve.cpp:59-61 | `v >= num_bytes(n)` exactly when `v >= 1` and `n < 2^(8v)`: it is the least width that holds `n` |
| `Codec.ByteWidthMonotone` | src/prime_sieve.cpp:59-61 | a larger value never needs fewer bytes |
| `Codec.ByteWidthExamples` | src/prime_sieve.cpp:59-61 | 255 takes 1 byte, 256 takes 2, 65535 takes 2, 65536 takes 3; 255 encodes as `[0xFF]` and 256 as `[0x01, 0x00]` |
| `Codec.EncodeBEAt` | src/prime_sieve.cpp:83-84 | byte `j` of the encoding is `(P >> 8*(NB-(j+1))) & 0xFF` |
| `Codec.EncodeBigEndian` | src/prime_sieve.cpp:79-84 | the loop builds the big-endian encoding, and decoding it gives `P` back whenever `P` fits in the width |
| `Codec.DecodeBigEndian` | src/prime_sieve.cpp:32-37 | the shift-or loop yields the big-endian value of the group, below `2^(8w)`, whose encoding at width `w` is the group itself |
| `Codec.DecodeEncode` | src/prime_sieve.cpp:80-84 | decoding the `w`-byte encoding of any `p < 2^(8w)` gives `p` |
| `Codec.EncodeDecode` | src/prime_sieve.cpp:31-39 | encoding the decoded value of a byte group at the group's length gives the group back |
| `PrimeStore.RunEndFacts` | src/prime_sieve.cpp:18-19 | the width scan stops after an unbroken run of existing shards starting at 1, at the first missing one |
| `PrimeStore.RunEndNine` | src/prime_sieve.cpp:18-19 | the scan reaches width 9, where the width assertion fails, exactly when shards 1 to 9 all exist |
| `PrimeStore.WholeEntriesScanned` | src/prime_sieve.cpp:26-36 | when every shard holds whole entries, the format that saving keeps, so does every shard the loading loop opens |
| `PrimeStore.CountStored` | src/prime_sieve.cpp:72-75 | the counting loop sums `size / i` over the run of shards, and fails exactly when shards 1 to 9 exist |
| `PrimeStore.DecodeFile` | src/prime_sieve.cpp:31-40 | the loop over one shard decodes each `w`-byte group in file order |
| `PrimeStore.DecodeShardSnoc` | src/prime_sieve.cpp:31-39 | reading one more group appends its value |
| `PrimeStore.ReadShards` | src/prime_sieve.cpp:26-41 | the second loop appends the values of shards 1, 2, … up to the first missing one |
| `PrimeStore.CheckLoaded` | src/prime_sieve.cpp:43-44 | a loaded 0 fails first, then a loaded 1, and otherwise the values are kept |
| `PrimeStore.LoadPrimes` | src/prime_sieve.cpp:13-46 | `load_primes` computes `LoadSpec`: no directory leaves `primes` alone; otherwise the width check, the decoded shards, and the checks of 0 and 1 |
| `PrimeStore.LoadOutcomes` | src/prime_sieve.cpp:13-46 | no directory means no change; loading fails on width 9 exactly when shards 1 to 9 exist; a successful load only appends, and with a directory every value is at least 2 |
| `PrimeStore.SaveOne` | src/prime_sieve.cpp:79-85 | one pass of the save loop appends the encoding of `P` to the shard of its own width |
| `PrimeStore.SavePrimes` | src/prime_sieve.cpp:65-86 | `save_primes` computes `SaveSpec`: it creates the directory and appends every value from the stored count on, each to the shard of its own width |
| `StoreProperties.AppendAllAt` | src/prime_sieve.cpp:78-86 | after appending `ps`, shard `w` holds its old bytes followed by the encodings of the values of `ps` of width `w`, in order; it exists exactly when it existed before or one of them has width `w` |
| `StoreProperties.SaveAppendsDelta` | src/prime_sieve.cpp:65-86 | saving appends exactly `primes[k..]`, `k` the stored count; old shard bytes are kept as a prefix, and a shard gains bytes only from values of its own width |
| `StoreProperties.SaveKeepsStoredBytes` | src/prime_sieve.cpp:78-86 | saving never changes bytes already on disk and never removes a shard |
| `StoreProperties.SaveKeepsAllBytes` | src/prime_sieve.cpp:78-86 | the same for every shard at once: each shard before the save is still there, with its old bytes as a prefix |
| `StoreProperties.AppendAllWhole` | src/prime_sieve.cpp:78-86 | appending keeps every shard of width 1 to 8 a whole number of `w`-byte entries |
| `StoreProperties.SaveKeepsWholeEntries` | src/prime_sieve.cpp:65-86 | after a save every shard still holds whole entries, so the next load reads only whole values |
| `StoreProperties.CountAfterAppend` | src/prime_sieve.cpp:72-75 | appending adds to the count of shards 1..m one entry per appended value of width 1..m |
| `StoreProperties.SaveIdempotent` | src/prime_sieve.cpp:72-78 | a second save with the same `primes` leaves the store as the first left it, whenever that store has no missing width |
| `StoreProperties.LayoutNoGaps` | src/prime_sieve.cpp:18-19 | the layout of an ascending list whose widths skip none has shards exactly for widths 1 to its last width, so the width scan sees them all |
| `StoreProperties.CountLayout` | src/prime_sieve.cpp:72-75 | that layout counts exactly as many entries as the list holds |
| `StoreProperties.SaveExtends` | src/prime_sieve.cpp:65-86 | saving `b` onto the layout of a prefix of `b` leaves the layout of `b`: a checkpoint extends the store |
| `StoreProperties.DecodeEncodeAll` | src/prime_sieve.cpp:31-39 | decoding a shard of width-`w` encodings gives the values back |
| `StoreProperties.LayoutShard` | src/prime_sieve.cpp:31-40 | decoding shard `w` of a layout gives its values of width `w`, in order |
| `StoreProperties.LoadLayout` | src/prime_sieve.cpp:13-46 | loading the layout of an ascending list of values of at least 2, with no missing width, gives the list back |
| `StoreProperties.SaveThenLoad` | src/prime_sieve.cpp:13-86 | round trip: saving such a list into no store writes its layout, and loading that gives the list back |
| `Primes.PrimesBelowMembers` | src/prime_sieve.cpp:107-129 | the list the search maintains holds exactly the primes below the bound |
| `Primes.PrimesBelowAscending` | src/prime_sieve.cpp:107-129 | that list is strictly increasing |
| `Primes.PrimesBelowOddStep` | src/prime_sieve.cpp:107-129 | one odd step of the loop adds `i` exactly when `i` is prime |
| `Primes.PrimesBelowEvenStep` | src/prime_sieve.cpp:107 | skipping an even number above 2 adds no prime |
| `Primes.SmallPrimeFactor` | src/prime_sieve.cpp:119-127 | a composite `n` has a prime factor `q` with `q * q <= n` |
| `Primes.FakeSqrtBound` | src/prime_sieve.cpp:117 | `fake_sqrt * fake_sqrt > i` for every `i >= 1`: the bound is never below the square root |
| `Primes.FakeSqrtBelow` | src/prime_sieve.cpp:117 | for odd `i >= 3`, `fake_sqrt < i`, so a known prime up to the bound that divides `i` is a proper factor |
| `Primes.NoSmallFactorIsPrime` | src/prime_sieve.cpp:119-127 | with every prime below `i` known, no divisor among those up to the bound means `i` is prime |
| `Primes.PrimesBelowTen` | src/prime_sieve.cpp:107-129 | a search up to 10 ends with `[2, 3, 5, 7]` |
| `Primes.PrimeByTrialDivision` | src/prime_sieve.cpp:117-127 | no divisor up to a bound `s` with `s * s > n` makes `n` prime |
| `Primes.Prime257` | src/prime_sieve.cpp:18-26 | 257, a value of two bytes, is prime |
| `Primes.Prime65537` | src/prime_sieve.cpp:18-26 | 65537, a value of three bytes, is prime |
| `Sieve.FakeSquareRoot` | src/prime_sieve.cpp:117 | `fake_sqrt` squared exceeds `i`, and it is below every odd `i >= 3` |
| `Sieve.TrialDivide` | src/prime_sieve.cpp:108-127 | with every prime below `i` known, the early-exit division decides primality exactly; a rejected candidate is composite, or 1 is among the known primes |
| `Sieve.CompleteListDecides` | src/prime_sieve.cpp:119-127 | division that stops at the bound or at the end of a complete list proves `i` prime |
| `Sieve.Candidate` | src/prime_sieve.cpp:108-140 | one pass pushes at most `i`, extends a complete list to every prime below `i + 2`, keeps fewer than `group_size` unsaved, keeps every byte already on disk, leaves the disk as it was or as `save_primes` leaves it, succeeds with disk and saved count unchanged when no save can be due, and keeps the saved prefix laid out on disk |
| `Sieve.Search` | src/prime_sieve.cpp:107-141 | from every prime below the start, the loop ends knowing every prime below the bound; after each check fewer than `group_size` primes are unsaved; every shard on disk at the start survives with its bytes as a prefix; the disk keeps the layout of the saved prefix |
| `Sieve.SearchStepKeepsLayout` | src/prime_sieve.cpp:129-132 | pushing a prime without a checkpoint leaves the layout of the saved prefix unchanged |
| `Sieve.Checkpoint` | src/prime_sieve.cpp:131-140 | once `group_size` primes are unsaved, `save_primes` runs: the checkpoint succeeds exactly when it does, the disk is what it leaves, and `saved` becomes the count; otherwise it succeeds and nothing changes |
| `Sieve.SaveWithoutNinthShard` | src/prime_sieve.cpp:72-75 | with no shard 9, saving succeeds and creates none |
| `Sieve.ResumePoint` | src/prime_sieve.cpp:94-106 | `saved` is the number loaded; the start is odd and below `2^64`; the primes are the loaded ones or `[2]`; the only failure is an even start |
| `Sieve.ResumeFailsOnEven` | src/prime_sieve.cpp:96-106 | resuming fails exactly when the last value is even and not 2: adding 2 modulo `2^64` keeps the parity, even when it wraps |
| `Sieve.ResumeExample` | src/prime_sieve.cpp:96-101 | after `[2, 3, 5, 7]` the search resumes at 9; after `[2]` at 3 |
| `Sieve.ResumeFresh` | src/prime_sieve.cpp:92-100 | without a store the search starts at 3 with `[2]`, the primes below 3, and nothing saved |
| `Sieve.LoadCheckpoint` | src/prime_sieve.cpp:13-46 | loading the layout of every prime below `n`, for any `n` up to the loop bound, gives that list |
| `Sieve.ResumeAfterPrimes` | src/prime_sieve.cpp:94-106 | after every prime below `n` the start is odd, at most the loop bound, the primes in memory are every prime below it, and the saved count covers exactly those below `n` |
| `Sieve.ResumeFromCheckpoint` | src/prime_sieve.cpp:92-106 | the same, starting from the store a complete run up to `n` leaves |
| `Sieve.LastPrimeBelow` | src/prime_sieve.cpp:101 | the primes below the largest odd prime below `n`, plus 2, are exactly the primes below `n`: no prime lies in between |
| `Sieve.NoPrimeBetween` | src/prime_sieve.cpp:107-129 | no prime lies strictly between two consecutive primes of the list the search builds |
| `Sieve.NextPrimeWidth` | src/prime_sieve.cpp:78-85 | consecutive primes of the search differ in byte width by at most one, so consecutive saves never skip a shard |
| `Sieve.PrimesGapless` | src/prime_sieve.cpp:18-26 | the primes below any bound of the search start at width 1 and skip no byte width, the run the width scan of the loader expects |
| `Sieve.ResumeAboveOne` | src/prime_sieve.cpp:94-100 | every value the search resumes with is at least 2 |
| `Sieve.CompleteResume` | src/prime_sieve.cpp:92-106 | from no store or a complete one, resuming succeeds, knows every prime below the start, and finds the saved prefix laid out with no shard 9 |
| `Sieve.Resume` | src/prime_sieve.cpp:92-106 | loading then computing the start gives `ResumeSpec` |
| `Sieve.FinalSave` | src/prime_sieve.cpp:143 | the final save succeeds exactly when `save_primes` does, the disk is what it leaves, every byte already on disk is kept, everything is marked saved, it fails only on a shard 9, and it lays out every prime found when the saved prefix was laid out |
| `Sieve.SearchAndSave` | src/prime_sieve.cpp:107-143 | the loop and final save keep every byte already on disk; from every prime below the start they end knowing, and with the layout on disk, every prime below the bound |
| `Sieve.RunSieve` | src/prime_sieve.cpp:90-144 | `main` fails only when loading or the odd-start assertion fails, or on a shard 9 already on disk; a successful run keeps every byte already on disk; from no store or the store a complete run leaves it ends with exactly the primes below `0xFFFF'FFFF`, all of them saved in their layout |

## Left out

- Console output (lines 103-104 and 137-138) is not modelled: it only reports progress.
- `primes.reserve(num_primes)` (lines 16-23) is not modelled: it only allocates. Its count is the same `StoredCount` that `save_primes` uses, and the first loop's width assertion is kept.
- The file system is not modelled. `std::filesystem` and the helpers `load_file` and `append_file` from `util/util.h` become the `Disk` value: a lookup, and concatenation at the end of a shard. `util/util.h` is not part of this model. The model assumes `load_file` returns unsigned bytes (`byte`, 0 to 255). If its buffer held signed `char`, `n |= file[j+k]` at line 36 would sign-extend every byte of 0x80 or more, and the round trip would fail.
- A `Disk` value without the directory but with shards describes no real file system. The model never builds one: every save returns a disk whose directory exists.
- The global `primes` vector and the directory are passed through the methods as values (`SieveState`, `Disk`) instead of being updated in place. Nothing else refers to them, so no aliasing is lost.
- Crashes, interruption and running time are not modelled. What a crash would leave behind is covered by the invariant that fewer than `group_size` primes are unsaved after each checkpoint test, and by `StoreProperties.SaveExtends`.
- Machine widths are not modelled for the `int` counters `j`, `k`, `i` and `num_saved_primes`, nor for the `int` literal in `1 << …` at line 117. All of them stay small while the candidate is below `2^32`. The `uint64_t` wrap of `start += 2` is modelled.
- `Sieve.Search`, `Sieve.Candidate`, `Sieve.Checkpoint`: the loop bound and `group_size` are parameters. `RunSieve` passes the source's constants `0xFFFF'FFFF` and `4096*4`.
- `PrimeStore.LoadPrimes`: requires every shard the loading loop opens, widths 1 up to the first missing one, to hold whole entries (`ScannedShardsWhole`). Otherwise the source reads `file[j+k]` past the end of the file, which is undefined behaviour. Shards behind the first missing width are unconstrained, and so is every shard when shards 1 to 9 all exist, since the width assertion then fails before any file is read. The format invariant `WholeEntries` covers every shard and implies it (`PrimeStore.WholeEntriesScanned`), and `StoreProperties.SaveKeepsWholeEntries` shows that saving keeps it.
- `Sieve.RunSieve`: the full outcome is stated for no store and for the store a complete run up to some `n` leaves. Other stores are covered only by the failure and extension clauses.
- `StoreProperties.SaveIdempotent`: requires the store the first save leaves to have no missing width. If a gap remains after the first save, values whose width lies beyond it are not counted by the second save, and so are appended again.
- `StoreProperties.SaveThenLoad` and `StoreProperties.LoadLayout`: require an ascending list of values of at least 2 whose widths skip none. Loading stops at the first missing width (lines 18 and 26) and rejects 0 and 1.
- `Sieve.TrialDivide`: a rejected candidate is only proved composite when 1 is not among the known primes. 1 reaches the list only through the 64-bit wrap described above.
- `Primes.PrimesBelowTen`: the concrete run is stated up to 10. Larger concrete runs are not stated: evaluating primality that far costs more than the solver budget, and `Sieve.Search` proves the general case.

=== FILE: arith.dfy ===
/** Integer facts behind the shifts, masks and divisions of the prime store. */
module Arith {

  /** 2 to the power k: the value of `1 << k` and the scale of a shift by k bits. */
  function Pow2(k: nat): (r: nat)
    ensures r >= 1
  {
    if k == 0 then 1 else 2 * Pow2(k - 1)
  }

  lemma {:induction false} Pow2Add(a: nat, b: nat)
    ensures Pow2(a + b) == Pow2(a) * Pow2(b)
  {
    if a > 0 {
      Pow2Add(a - 1, b);
      calc {
        Pow2(a + b);
        2 * Pow2(a - 1 + b);
        2 * (Pow2(a - 1) * Pow2(b));
        (2 * Pow2(a - 1)) * Pow2(b);
      }
    }
  }

  lemma {:induction false} Pow2Increasing(a: nat, b: nat)
    requires a < b
    ensures Pow2(a) < Pow2(b)
  {
    if a + 1 < b {
      Pow2Increasing(a, b - 1);
    }
  }

  /** Shifting a value below p left by one byte and or-ing in a byte stays below p * 256. */
  lemma ShiftInBelow(n: nat, b: nat, p: nat)
    requires n < p && b < 256
    ensures n * 256 + b < p * 256
  {
    MulLeft(n + 1, p, 256);
  }

  /** Stepping by two keeps an odd number odd. */
  lemma OddStep(i: int)
    requires i % 2 == 1
    ensures (i + 2) % 2 == 1
  {
    DivModUnique(i + 2, 2, i / 2 + 1, 1);
  }

  /** An odd number below another odd number is at least two below it. */
  lemma OddBelowOdd(a: int, b: int)
    requires a % 2 == 1 && b % 2 == 1 && a < b
    ensures a + 2 <= b
  {
    var qa, qb := a / 2, b / 2;
    assert a == 2 * qa + 1;
    assert b == 2 * qb + 1;
  }

  /** Pow2 never decreases. */
  lemma Pow2Monotone(a: nat, b: nat)
    requires a <= b
    ensures Pow2(a) <= Pow2(b)
  {
    if a < b {
      Pow2Increasing(a, b);
    }
  }

  /** One byte spans Pow2(8) values. */
  lemma Pow2Of8()
    ensures Pow2(8) == 256
  {
    assert Pow2(2) == 4;
    assert Pow2(4) == 16;
    assert Pow2(6) == 64;
  }

  lemma Pow2Of16()
    ensures Pow2(16) == 0x1_0000
  {
    Pow2Of8();
    Pow2Add(8, 8);
  }

  lemma Pow2Of32()
    ensures Pow2(32) == 0x1_0000_0000
  {
    Pow2Of16();
    Pow2Add(16, 16);
  }

  /** The 64-bit range: every `uint64_t` is below Pow2(64). */
  lemma Pow2Of64()
    ensures Pow2(8) == 256
    ensures Pow2(64) == 0x1_0000_0000_0000_0000
  {
    Pow2Of8();
    Pow2Of32();
    Pow2Add(32, 32);
  }

  /** Adding whole multiples of w to a multiple of w leaves a multiple of w. */
  lemma MultipleAdd(a: nat, w: nat, n: nat)
    requires w > 0 && a % w == 0
    ensures (a + w * n) % w == 0
  {
    var q := a / w;
    assert a == q * w;
    assert a + w * n == (q + n) * w;
    DivModUnique(a + w * n, w, q + n, 0);
  }

  /** A value below m * d has a quotient by d below m. */
  lemma DivBelow(p: nat, d: nat, m: nat)
    requires d > 0 && p < m * d
    ensures p / d < m
  {
    if p / d >= m {
      MulLeft(m, p / d, d);
    }
  }

  /** Quotient and remainder are determined by any decomposition n == q * d + r with 0 <= r < d. */
  lemma DivModUnique(n: int, d: int, q: int, r: int)
    requires d > 0 && 0 <= r < d && n == q * d + r
    ensures n / d == q && n % d == r
  {
    var q0, r0 := n / d, n % d;
    assert n == q0 * d + r0;
    assert (q - q0) * d == r0 - r;
    if q > q0 {
      assert (q - q0) * d >= d by { MulAtLeast(q - q0, d); }
    } else if q < q0 {
      assert (q0 - q) * d >= d by { MulAtLeast(q0 - q, d); }
    }
  }

  lemma MulAtLeast(a: int, d: int)
    requires a >= 1 && d > 0
    ensures a * d >= d
  {
  }

  /** Adding whole multiples of w adds exactly that many to the quotient by w. */
  lemma DivAddMultiple(a: nat, w: nat, x: nat)
    requires w > 0
    ensures (a + w * x) / w == a / w + x
  {
    DivModUnique(a + w * x, w, a / w + x, a % w);
  }

  /** Dividing by a and then by b is dividing by a * b. */
  lemma DivDiv(p: nat, a: nat, b: nat)
    requires a > 0 && b > 0
    ensures (p / a) / b == p / (a * b)
  {
    var q, r := (p / a) / b, (p / a) % b;
    assert p / a == q * b + r;
    assert p == (q * b + r) * a + p % a;
    assert r * a <= (b - 1) * a by { MulLeft(r, b - 1, a); }
    assert p == q * (a * b) + (r * a + p % a);
    DivModUnique(p, a * b, q, r * a + p % a);
  }

  lemma MulLeft(x: int, y: int, a: int)
    requires x <= y && a >= 0
    ensures x * a <= y * a
  {
  }

  /** Bit i of n, the value of `(n >> i) & 1`, joins the low i bits to give the low i + 1 bits. */
  lemma ModPow2Step(n: nat, i: nat)
    ensures n % Pow2(i + 1) == n % Pow2(i) + (n / Pow2(i)) % 2 * Pow2(i)
  {
    var p := Pow2(i);
    var q, r := n / p, n % p;
    assert n == q * p + r;
    assert q == 2 * (q / 2) + q % 2;
    assert q * p == (q / 2) * (2 * p) + (q % 2) * p;
    DivModUnique(n, 2 * p, q / 2, (q % 2) * p + r);
  }

  /** A positive multiple of i is at least i. */
  lemma MultipleAtLeast(x: nat, i: nat)
    requires i > 0 && x > 0 && x % i == 0
    ensures x >= i
  {
    if x < i {
      DivModUnique(x, i, 0, x);
    }
  }

  /** Taking i away from a multiple of i leaves a multiple of i. */
  lemma MultipleLess(x: nat, i: nat)
    requires i > 0 && x >= i && x % i == 0
    ensures (x - i) % i == 0
  {
    DivModUnique(x - i, i, x / i - 1, 0);
  }
}

=== FILE: codec.dfy ===
/**
 * The bit-width helpers and the fixed-width big-endian integer format of the
 * prime shards: `num_bits`, `num_bytes`, the byte loop of `save_primes` and the
 * shift-or loop of `load_primes`.
 */
module Codec {
  import opened Arith

  /** One byte of a shard file (`uint8_t`). */
  type byte = x: nat | x < 256

  /** The source's `uint64_t`. */
  type u64 = x: nat | x < 0x1_0000_0000_0000_0000

  /** Index of the highest set bit of n, 0 when n is 0 or 1. */
  function HighBit(n: nat): nat
  {
    if n <= 1 then 0 else 1 + HighBit(n / 2)
  }

  /** n lies between 2^HighBit(n) and 2^(HighBit(n) + 1). */
  lemma {:induction false} HighBitBounds(n: nat)
    requires n >= 1
    ensures Pow2(HighBit(n)) <= n < Pow2(HighBit(n) + 1)
  {
    if n >= 2 {
      HighBitBounds(n / 2);
    }
  }

  /** Any b with 2^b <= n < 2^(b+1) is the highest set bit of n. */
  lemma HighBitUnique(n: nat, b: nat)
    requires Pow2(b) <= n < Pow2(b + 1)
    ensures HighBit(n) == b
  {
    HighBitBounds(n);
    var h := HighBit(n);
    if h < b {
      Pow2Increasing(h, b);
      if h + 1 < b { Pow2Increasing(h + 1, b); }
    } else if h > b {
      if b + 1 < h { Pow2Increasing(b + 1, h); }
    }
  }

  /** Larger values never have a lower highest bit. */
  lemma {:induction false} HighBitMonotone(a: nat, b: nat)
    requires a <= b
    ensures HighBit(a) <= HighBit(b)
  {
    if a >= 2 {
      HighBitMonotone(a / 2, b / 2);
    }
  }

  /** b is the highest set bit of m (0 when m is 0). */
  ghost predicate TopBit(m: nat, b: nat)
  {
    (m >= 1 ==> Pow2(b) <= m < Pow2(b + 1)) && (m == 0 ==> b == 0)
  }

  /** b is the highest set bit among the low i bits of n (0 when none is set). */
  ghost predicate TopOfLowBits(n: nat, i: nat, b: nat)
  {
    TopBit(n % Pow2(i), b)
  }

  /** Looking at bit i extends the scan from the low i bits to the low i + 1 bits. */
  lemma NumBitsStep(n: nat, i: nat, b: nat)
    requires b <= i && TopOfLowBits(n, i, b)
    ensures TopOfLowBits(n, i + 1, if (n / Pow2(i)) % 2 == 1 then i else b)
  {
    ModPow2Step(n, i);
    var p := Pow2(i);
    var m := n % p;
    var m2 := n % Pow2(i + 1);
    if (n / p) % 2 == 1 {
      assert m2 == m + p;
      assert Pow2(i + 1) == 2 * p;
      assert TopBit(m2, i);
    } else {
      assert m2 == m;
    }
  }

  /**
   * `num_bits`: scans bits 0 to 63 and keeps the last index whose bit is set.
   * The result is the highest set bit, and 0 for n <= 1.
   */
  method NumBits(n: u64) returns (b: nat)
    ensures b == HighBit(n)
    ensures b < 64
    ensures n >= 1 ==> Pow2(b) <= n < Pow2(b + 1)
  {
    b := 0;
    var i := 0;
    while i < 64
      invariant 0 <= i <= 64
      invariant b <= i && b < 64
      invariant TopOfLowBits(n, i, b)
    {
      NumBitsStep(n, i, b);
      if (n / Pow2(i)) % 2 == 1 {
        b := i;
      }
      i := i + 1;
    }
    Pow2Of64();
    assert n % Pow2(64) == n;
    if n >= 1 {
      HighBitUnique(n, b);
    }
  }

  /** The minimal byte width of a value, `num_bits(n) / 8 + 1`. */
  function ByteWidth(n: nat): nat
  {
    HighBit(n) / 8 + 1
  }

  /**
   * The byte width of a 64-bit value is between 1 and 8, the value fits in that
   * many bytes, and a width above 1 is needed: the value does not fit in one byte less.
   */
  lemma ByteWidthFits(n: u64)
    ensures 1 <= ByteWidth(n) <= 8
    ensures n < Pow2(8 * ByteWidth(n))
    ensures ByteWidth(n) > 1 ==> Pow2(8 * (ByteWidth(n) - 1)) <= n
  {
    var h := HighBit(n);
    var w := h / 8 + 1;
    assert 8 * (w - 1) <= h < 8 * w;
    if n >= 1 {
      HighBitBounds(n);
      HighBitBelow64(n);
      Pow2Monotone(h + 1, 8 * w);
      Pow2Monotone(8 * (w - 1), h);
    }
  }

  /** A 64-bit value has its highest set bit below 64. */
  lemma HighBitBelow64(n: u64)
    requires n >= 1
    ensures HighBit(n) < 64
  {
    HighBitBounds(n);
    Pow2Of64();
    if HighBit(n) >= 64 {
      Pow2Monotone(64, HighBit(n));
    }
  }

  /** The byte width is the least v >= 1 with n < 2^(8v): every such v is at least it, and it is one. */
  lemma ByteWidthIsLeast(n: u64, v: nat)
    ensures v >= ByteWidth(n) <==> v >= 1 && n < Pow2(8 * v)
  {
    ByteWidthFits(n);
    var w := ByteWidth(n);
    if v >= w {
      Pow2Monotone(8 * w, 8 * v);
    } else if v >= 1 {
      Pow2Monotone(8 * v, 8 * (w - 1));
    }
  }

  /** Larger values never need fewer bytes. */
  lemma ByteWidthMonotone(a: nat, b: nat)
    requires a <= b
    ensures ByteWidth(a) <= ByteWidth(b)
  {
    HighBitMonotone(a, b);
  }

  /** `num_bytes`: the minimal byte width, computed from `num_bits`. */
  method NumBytes(n: u64) returns (w: nat)
    ensures w == ByteWidth(n)
    ensures 1 <= w <= 8
    ensures n < Pow2(8 * w)
    ensures w > 1 ==> Pow2(8 * (w - 1)) <= n
  {
    var b := NumBits(n);
    w := b / 8 + 1;
    ByteWidthFits(n);
  }

  /** The w-byte big-endian encoding of p: most significant byte first. */
  function EncodeBE(p: nat, w: nat): (bs: seq<byte>)
    ensures |bs| == w
  {
    if w == 0 then [] else EncodeBE(p / 256, w - 1) + [p % 256]
  }

  /** The value of a big-endian byte string, the result of the shift-or loop `n <<= 8; n |= b`. */
  function DecodeBE(bs: seq<byte>): (n: nat)
    ensures n < Pow2(8 * |bs|)
  {
    if bs == [] then 0
    else
      var init := bs[..|bs| - 1];
      var n0 := DecodeBE(init);
      Pow2Add(8 * |init|, 8);
      Pow2Of8();
      ShiftInBelow(n0, bs[|bs| - 1], Pow2(8 * |init|));
      n0 * 256 + bs[|bs| - 1]
  }

  /** Byte j of the encoding is `(p >> (8 * (w - (j + 1)))) & 0xFF`, as the save loop writes it. */
  lemma {:induction false} EncodeBEAt(p: nat, w: nat, j: nat)
    requires j < w
    ensures EncodeBE(p, w)[j] == (p / Pow2(8 * (w - (j + 1)))) % 256
  {
    if j < w - 1 {
      EncodeBEAt(p / 256, w - 1, j);
      Pow2Of8();
      Pow2Add(8, 8 * (w - 1 - (j + 1)));
      DivDiv(p, 256, Pow2(8 * (w - 1 - (j + 1))));
    }
  }

  /** Decoding a w-byte encoding gives back every value that fits in w bytes. */
  lemma {:induction false} DecodeEncode(p: nat, w: nat)
    requires p < Pow2(8 * w)
    ensures DecodeBE(EncodeBE(p, w)) == p
  {
    if w > 0 {
      var bs, q := EncodeBE(p, w), p / 256;
      assert bs[..w - 1] == EncodeBE(q, w - 1);
      Pow2Add(8 * (w - 1), 8);
      Pow2Of8();
      assert 8 * w == 8 * (w - 1) + 8;
      DivBelow(p, 256, Pow2(8 * (w - 1)));
      DecodeEncode(q, w - 1);
      assert DecodeBE(bs) == q * 256 + p % 256;
    }
  }

  /** Encoding the value of a byte string at its own length gives the byte string back. */
  lemma {:induction false} EncodeDecode(bs: seq<byte>)
    ensures EncodeBE(DecodeBE(bs), |bs|) == bs
  {
    if bs != [] {
      var init := bs[..|bs| - 1];
      var n := DecodeBE(bs);
      assert n / 256 == DecodeBE(init) && n % 256 == bs[|bs| - 1] by {
        DivModUnique(n, 256, DecodeBE(init), bs[|bs| - 1]);
      }
      EncodeDecode(init);
    }
  }

  /**
   * The byte loop of `save_primes`: appends the NB bytes of P, most significant first.
   */
  method EncodeBigEndian(p: u64, w: nat) returns (data: seq<byte>)
    ensures data == EncodeBE(p, w)
    ensures p < Pow2(8 * w) ==> DecodeBE(data) == p
  {
    data := [];
    var j := 0;
    while j < w
      invariant 0 <= j <= w
      invariant |data| == j
      invariant forall k :: 0 <= k < j ==> data[k] == EncodeBE(p, w)[k]
    {
      EncodeBEAt(p, w, j);
      data := data + [(p / Pow2(8 * (w - (j + 1)))) % 256];
      j := j + 1;
    }
    if p < Pow2(8 * w) {
      DecodeEncode(p, w);
    }
  }

  /**
   * The shift-or loop of `load_primes`: reads the w bytes of `file` starting at
   * offset j as one big-endian value.
   */
  method DecodeBigEndian(file: seq<byte>, j: nat, w: nat) returns (n: nat)
    requires j + w <= |file|
    ensures n == DecodeBE(file[j..j + w])
    ensures n < Pow2(8 * w)
    ensures EncodeBE(n, w) == file[j..j + w]
  {
    n := 0;
    var k := 0;
    while k < w
      invariant 0 <= k <= w
      invariant n == DecodeBE(file[j..j + k])
    {
      assert file[j..j + k + 1][..k] == file[j..j + k];
      n := n * 256 + file[j + k];
      k := k + 1;
    }
    EncodeDecode(file[j..j + w]);
  }

  /** The byte widths at the boundaries of one, two and three bytes. */
  lemma ByteWidthExamples()
    ensures ByteWidth(255) == 1 && ByteWidth(256) == 2
    ensures ByteWidth(65535) == 2 && ByteWidth(65536) == 3
    ensures EncodeBE(255, ByteWidth(255)) == [0xFF]
    ensures EncodeBE(256, ByteWidth(256)) == [0x01, 0x00]
  {
    Pow2Of8();
    Pow2Of16();
    HighBitUnique(255, 7);
    HighBitUnique(256, 8);
    HighBitUnique(65535, 15);
    HighBitUnique(65536, 16);
  }
}

=== FILE: errors.dfy ===
/** The conditions under which the prime search aborts, and results that carry them. */
module Errors {

  /** A failed `assert` of the source: each one ends the process. */
  datatype Error =
    | WidthOutOfRange  // a shard `primes_<w>.bin` with w outside 1..8 was reached
    | StoredZero       // a loaded value is 0
    | StoredOne        // a loaded value is 1
    | EvenStart        // the resumed candidate is even

  datatype Result<T> = Ok(value: T) | Err(error: Error)
}

=== FILE: primes.dfy ===
/** Primality and the ascending list of all primes below a bound. */
module Primes {
  import opened Arith
  import opened Codec

  predicate IsPrime(n: nat)
  {
    n >= 2 && forall d :: 2 <= d < n ==> n % d != 0
  }

  /** All primes below n, in ascending order. */
  function PrimesBelow(n: nat): seq<u64>
    requires n <= 0x1_0000_0000_0000_0000
  {
    if n <= 2 then []
    else PrimesBelow(n - 1) + (if IsPrime(n - 1) then [(n - 1) as u64] else [])
  }

  /** PrimesBelow(n) holds exactly the primes below n. */
  lemma {:induction false} PrimesBelowMembers(n: nat, x: nat)
    requires n <= 0x1_0000_0000_0000_0000
    ensures x in PrimesBelow(n) <==> IsPrime(x) && x < n
  {
    if n > 2 {
      PrimesBelowMembers(n - 1, x);
    }
  }

  /** PrimesBelow(n) is strictly increasing. */
  lemma {:induction false} PrimesBelowAscending(n: nat)
    requires n <= 0x1_0000_0000_0000_0000
    ensures forall i, j :: 0 <= i < j < |PrimesBelow(n)| ==> PrimesBelow(n)[i] < PrimesBelow(n)[j]
  {
    if n > 2 {
      var prev := PrimesBelow(n - 1);
      PrimesBelowAscending(n - 1);
      forall i | 0 <= i < |prev|
        ensures prev[i] < n - 1
      {
        PrimesBelowMembers(n - 1, prev[i]);
      }
    }
  }

  /** From an odd i the list grows by i exactly when i is prime; the even i + 1 adds nothing. */
  lemma PrimesBelowOddStep(i: nat)
    requires 3 <= i && i % 2 == 1 && i + 2 <= 0x1_0000_0000_0000_0000
    ensures PrimesBelow(i + 2) == PrimesBelow(i) + (if IsPrime(i) then [i as u64] else [])
  {
    assert !IsPrime(i + 1) by {
      assert (i + 1) % 2 == 0;
    }
  }

  /** An even bound above 2 is not prime, so it adds nothing. */
  lemma PrimesBelowEvenStep(n: nat)
    requires 4 <= n && n % 2 == 0 && n + 1 <= 0x1_0000_0000_0000_0000
    ensures PrimesBelow(n + 1) == PrimesBelow(n)
  {
    assert !IsPrime(n) by {
      assert n % 2 == 0;
    }
  }

  /** Without a prime in m..n-1, the primes below n are the primes below m. */
  lemma {:induction false} PrimesBelowGap(m: nat, n: nat)
    requires m <= n <= 0x1_0000_0000_0000_0000
    requires forall x :: m <= x < n ==> !IsPrime(x)
    ensures PrimesBelow(n) == PrimesBelow(m)
  {
    if m < n && n > 2 {
      PrimesBelowGap(m, n - 1);
    }
  }

  /** A smaller bound gives a prefix of the list. */
  lemma {:induction false} PrimesBelowPrefix(m: nat, n: nat)
    requires m <= n <= 0x1_0000_0000_0000_0000
    ensures PrimesBelow(m) <= PrimesBelow(n)
  {
    if m < n && n > 2 {
      PrimesBelowPrefix(m, n - 1);
    }
  }

  lemma ThreeIsPrime()
    ensures IsPrime(2) && IsPrime(3)
  {
    forall d | 2 <= d < 3
      ensures 3 % d != 0
    {
      assert d == 2;
    }
  }

  /** A prime other than 2 is odd. */
  lemma OddPrime(p: nat)
    requires IsPrime(p) && p != 2
    ensures p % 2 == 1
  {
    assert p % 2 != 0;
  }

  /** If e divides q and q divides n then e divides n. */
  lemma DividesTrans(e: nat, q: nat, n: nat)
    requires e > 0 && q > 0 && q % e == 0 && n % q == 0
    ensures n % e == 0
  {
    var a, b := q / e, n / q;
    assert q == a * e;
    assert n == b * q;
    assert n == (b * a) * e;
    DivModUnique(n, e, b * a, 0);
  }

  /** The least divisor of n that is at least d. */
  function LeastDivisorFrom(n: nat, d: nat): nat
    requires 2 <= d <= n
    decreases n - d
  {
    if n % d == 0 then d else LeastDivisorFrom(n, d + 1)
  }

  lemma {:induction false} LeastDivisorFacts(n: nat, d: nat)
    requires 2 <= d <= n
    requires forall e :: 2 <= e < d ==> n % e != 0
    ensures var q := LeastDivisorFrom(n, d);
            && d <= q <= n && n % q == 0
            && forall e :: 2 <= e < q ==> n % e != 0
    decreases n - d
  {
    if n % d != 0 {
      LeastDivisorFacts(n, d + 1);
    }
  }

  /** A divisor q of n with no divisor of n in 2..q-1 is prime. */
  lemma LeastDivisorIsPrime(n: nat, q: nat)
    requires 2 <= q <= n && n % q == 0
    requires forall e :: 2 <= e < q ==> n % e != 0
    ensures IsPrime(q)
  {
    forall e | 2 <= e < q
      ensures q % e != 0
    {
      if q % e == 0 {
        DividesTrans(e, q, n);
      }
    }
  }

  /** The least divisor q >= 2 of a composite n satisfies q * q <= n. */
  lemma LeastDivisorSquare(n: nat, q: nat)
    requires 2 <= q < n && n % q == 0
    requires forall e :: 2 <= e < q ==> n % e != 0
    ensures q * q <= n
  {
    var m := n / q;
    DivModUnique(n, q, m, 0);
    assert n == m * q;
    if m < 2 {
      MulLeft(m, 1, q);
    }
    DivModUnique(n, m, q, 0);
    MulLeft(q, m, q);
  }

  /** Every composite n has a prime factor q with q * q <= n. */
  lemma SmallPrimeFactor(n: nat) returns (q: nat)
    requires n >= 2 && !IsPrime(n)
    ensures IsPrime(q) && n % q == 0 && q * q <= n
  {
    LeastDivisorFacts(n, 2);
    q := LeastDivisorFrom(n, 2);
    var w :| 2 <= w < n && n % w == 0;
    LeastDivisorIsPrime(n, q);
    LeastDivisorSquare(n, q);
  }

  /** The trial-division bound `1 << ((num_bits(i) + 2) / 2)`. */
  function FakeSqrt(i: nat): nat
  {
    Pow2((HighBit(i) + 2) / 2)
  }

  /** The bound is never below the square root: its square exceeds i. */
  lemma FakeSqrtBound(i: nat)
    requires i >= 1
    ensures FakeSqrt(i) * FakeSqrt(i) > i
  {
    var h := HighBit(i);
    var e := (h + 2) / 2;
    HighBitBounds(i);
    Pow2Add(e, e);
    if h + 1 < e + e {
      Pow2Increasing(h + 1, e + e);
    }
  }

  /** For odd i >= 3 the bound lies below i, so a known prime up to it that divides i is a proper factor. */
  lemma FakeSqrtBelow(i: nat)
    requires i >= 3 && i % 2 == 1
    ensures FakeSqrt(i) < i
  {
    var h := HighBit(i);
    HighBitBounds(i);
    assert Pow2(1) == 2;
    if h == 1 {
      assert FakeSqrt(i) == 2;
    } else {
      assert h >= 2;
      var e := (h + 2) / 2;
      if e < h {
        Pow2Increasing(e, h);
      }
      assert Pow2(h) != i by {
        assert Pow2(h) == 2 * Pow2(h - 1);
      }
    }
  }

  /**
   * A candidate with no divisor among the primes up to a bound s with s * s > i
   * is prime, when the list holds every prime below i in ascending order.
   */
  lemma NoSmallFactorIsPrime(primes: seq<u64>, i: nat, j: nat, s: nat)
    requires 2 <= i <= 0x1_0000_0000_0000_0000 && primes == PrimesBelow(i)
    requires s * s > i && j <= |primes|
    requires forall k :: 0 <= k < j ==> primes[k] >= 1 && i % primes[k] != 0
    requires forall k :: j <= k < |primes| ==> primes[k] > s
    ensures IsPrime(i)
  {
    if !IsPrime(i) {
      var q := SmallPrimeFactor(i);
      if q >= s {
        MulLeft(s, q, s);
        MulLeft(s, q, q);
      }
      assert q < i by {
        MulLeft(2, q, q);
      }
      PrimesBelowMembers(i, q);
      assert false;
    }
  }

  /** No d with lo <= d < n divides n: trial division from lo, which Dafny can evaluate on constants. */
  predicate NoDivisorFrom(n: nat, lo: nat)
    requires lo >= 2
    decreases n - lo
  {
    lo >= n || (n % lo != 0 && NoDivisorFrom(n, lo + 1))
  }

  lemma {:induction false} NoDivisorFromMeans(n: nat, lo: nat)
    requires lo >= 2
    ensures NoDivisorFrom(n, lo) <==> forall d :: lo <= d < n ==> n % d != 0
    decreases n - lo
  {
    if lo < n {
      NoDivisorFromMeans(n, lo + 1);
    }
  }

  /** Primality of each n in [lo, hi) by evaluated trial division. */
  lemma PrimalityBetween(lo: nat, hi: nat)
    requires 2 <= lo
    ensures forall n :: lo <= n < hi ==> (IsPrime(n) <==> NoDivisorFrom(n, 2))
  {
    forall n | lo <= n < hi
      ensures IsPrime(n) <==> NoDivisorFrom(n, 2)
    {
      NoDivisorFromMeans(n, 2);
    }
  }

  /** Trial division by every d up to a bound s with s * s > n proves n prime. */
  lemma PrimeByTrialDivision(n: nat, s: nat)
    requires n >= 2 && s * s > n
    requires forall d :: 2 <= d <= s ==> n % d != 0
    ensures IsPrime(n)
  {
    if !IsPrime(n) {
      var q := SmallPrimeFactor(n);
      if q > s {
        MulLeft(s, q, s);
        MulLeft(s, q, q);
      }
      assert false;
    }
  }

  /** 257, a prime of two bytes. */
  lemma Prime257()
    ensures IsPrime(257)
  {
    PrimeByTrialDivision(257, 17);
  }

  /** No d from 2 to 257 divides 65537. */
  lemma NoSmallDivisorOf65537()
    ensures forall d :: 2 <= d <= 257 ==> 65537 % d != 0
  {
  }

  /** 65537, a prime of three bytes. */
  lemma Prime65537()
    ensures IsPrime(65537)
  {
    NoSmallDivisorOf65537();
    PrimeByTrialDivision(65537, 257);
  }

  /** The primes below 10: what a search run up to 10 ends with. */
  lemma PrimesBelowTen()
    ensures PrimesBelow(10) == [2, 3, 5, 7]
  {
    PrimalityBetween(2, 10);
  }
}

=== FILE: sieve.dfy ===
/**
 * The search of `main` in `prime_sieve.cpp`: resume from the store, test odd
 * candidates by trial division against the primes already known, checkpoint
 * every `group_size` new primes, and save once more at the end.
 */
module Sieve {
  import opened Arith
  import opened Codec
  import opened Errors
  import opened Primes
  import opened PrimeStore
  import opened StoreProperties

  /** The loop bound `0xFFFF'FFFF` of `main`. */
  const SearchLimit: nat := 0xFFFF_FFFF

  /** `group_size`: new primes between two checkpoints. */
  const GroupSize: nat := 4096 * 4

  /** The primes in memory, the count at the last checkpoint, and the disk. */
  datatype SieveState = SieveState(primes: seq<u64>, saved: nat, disk: Disk)

  /**
   * `fake_sqrt`, line 117: one shifted left by half the bit length of i,
   * rounded up. Its square exceeds i, and it is below every odd i >= 3.
   */
  method FakeSquareRoot(i: nat) returns (s: nat)
    requires 1 <= i < SearchLimit
    ensures s == FakeSqrt(i)
    ensures s * s > i
    ensures 3 <= i && i % 2 == 1 ==> s < i
  {
    var b := NumBits(i);
    s := Pow2((b + 2) / 2);
    FakeSqrtBound(i);
    if 3 <= i && i % 2 == 1 {
      FakeSqrtBelow(i);
    }
  }

  /**
   * The body of the candidate loop for one odd i: divide by the known primes in
   * order, stop at the first one above `fake_sqrt` or at the first that divides i.
   * A divisor found proves i composite; with every prime below i known, finding
   * none proves i prime.
   */
  method TrialDivide(primes: seq<u64>, i: nat) returns (isPrime: bool)
    requires 1 <= i < SearchLimit && i % 2 == 1
    requires forall k :: 0 <= k < |primes| ==> primes[k] >= 1
    ensures !isPrime ==> !IsPrime(i) || 1 in primes
    ensures 3 <= i && primes == PrimesBelow(i) ==> isPrime == IsPrime(i)
  {
    var fakeSqrt := FakeSquareRoot(i);
    isPrime := true;
    var j := 0;
    while j < |primes|
      invariant 0 <= j <= |primes|
      invariant forall k :: 0 <= k < j ==> 1 <= primes[k] <= fakeSqrt && i % primes[k] != 0
    {
      var p := primes[j];
      if p > fakeSqrt {
        break;
      }
      if i % p == 0 {
        isPrime := false;
      }
      if !isPrime {
        if p != 1 {
          assert 2 <= p < i || i == 1;
        } else {
          assert p in primes;
          if 3 <= i && primes == PrimesBelow(i) {
            PrimesBelowMembers(i, 1);
          }
        }
        return;
      }
      j := j + 1;
    }
    if 3 <= i && primes == PrimesBelow(i) {
      CompleteListDecides(primes, i, j, fakeSqrt);
    }
  }

  /** The trial division stops at an entry above the bound or at the end of a complete list: i is prime. */
  lemma CompleteListDecides(primes: seq<u64>, i: nat, j: nat, s: nat)
    requires 3 <= i < SearchLimit && primes == PrimesBelow(i) && s == FakeSqrt(i)
    requires j <= |primes| && (j < |primes| ==> primes[j] > s)
    requires forall k :: 0 <= k < j ==> 1 <= primes[k] <= s && i % primes[k] != 0
    ensures IsPrime(i)
  {
    FakeSqrtBound(i);
    PrimesBelowAscending(i);
    NoSmallFactorIsPrime(primes, i, j, s);
  }

  /** Where the candidate loop of `for (i = start; i < limit; i += 2)` stops. */
  function LoopEnd(start: nat, limit: nat): nat
  {
    if start < limit then limit else start
  }

  /** Saving never reaches width 9 when no shard 9 exists, and never creates one. */
  lemma SaveWithoutNinthShard(d: Disk, primes: seq<u64>)
    requires 9 !in d.shards
    ensures SaveSpec(d, primes).Ok?
    ensures 9 !in SaveSpec(d, primes).value.shards
  {
    RunEndNine(d.shards);
    var c := StoredCountTo(d.shards, RunEnd(d.shards, 1));
    if c <= |primes| {
      var t := primes[c..];
      AppendAllAt(d.shards, t, 9);
      if OfWidth(t, 9) != [] {
        var x := OfWidth(t, 9)[0];
        OfWidthMembers(t, 9, x);
        ByteWidthFits(x);
      }
    }
  }

  /** The saved prefix is laid out on disk whenever the primes in memory could be. */
  ghost predicate LayoutKept(st: SieveState)
  {
    st.saved <= |st.primes| &&
    (Ascending(st.primes) && WidthsGapless(st.primes) ==> st.disk.shards == Layout(st.primes[..st.saved]))
  }

  /**
   * One pass of the candidate loop, lines 108-140: trial division, the push of a
   * prime, and the checkpoint test.
   */
  method Candidate(st: SieveState, i: nat, groupSize: nat) returns (r: Result<SieveState>)
    requires 1 <= i < SearchLimit && i % 2 == 1 && groupSize >= 1
    requires forall k :: 0 <= k < |st.primes| ==> st.primes[k] >= 1
    ensures r.Err? ==> r.error == WidthOutOfRange && 9 in st.disk.shards
    ensures r.Ok? ==> st.primes <= r.value.primes
    ensures r.Ok? ==> |r.value.primes| - r.value.saved < groupSize
    ensures r.Ok? ==> forall k :: 0 <= k < |r.value.primes| ==> r.value.primes[k] >= 1
    ensures r.Ok? && 3 <= i && st.primes == PrimesBelow(i) ==> r.value.primes == PrimesBelow(i + 2)
    ensures r.Ok? && 9 !in st.disk.shards ==> 9 !in r.value.disk.shards
    ensures r.Ok? && LayoutKept(st) ==> LayoutKept(r.value)
    ensures r.Ok? ==> r.value.primes == st.primes || r.value.primes == st.primes + [i as u64]
    ensures r.Ok? ==> r.value.disk == st.disk || SaveSpec(st.disk, r.value.primes) == Ok(r.value.disk)
    ensures |st.primes| + 1 < st.saved + groupSize ==> r.Ok? && r.value.saved == st.saved && r.value.disk == st.disk
    ensures r.Ok? ==> KeepsBytes(st.disk.shards, r.value.disk.shards)
  {
    var isPrime := TrialDivide(st.primes, i);
    var primes := st.primes;
    if isPrime {
      primes := primes + [i as u64];
    }
    if 3 <= i {
      PrimesBelowOddStep(i);
    }
    if LayoutKept(st) {
      SearchStepKeepsLayout(st.primes, primes, st.saved, st.disk.shards);
    }
    r := Checkpoint(SieveState(primes, st.saved, st.disk), groupSize);
    if r.Ok? && r.value.disk != st.disk {
      SaveKeepsAllBytes(st.disk, primes);
    }
  }

  /**
   * The candidate loop of `main`, lines 107-141. With every prime below the
   * first candidate known, it ends knowing every prime below the loop bound;
   * after each checkpoint test fewer than `groupSize` primes are unsaved; and
   * when the disk starts as the layout of the saved prefix, each checkpoint
   * leaves it as the layout of the primes known then. Checkpoints only append:
   * every byte on disk at the start is still there at the end.
   */
  method Search(st0: SieveState, start: nat, limit: nat, groupSize: nat) returns (r: Result<SieveState>)
    requires 1 <= start && start % 2 == 1 && limit <= SearchLimit && groupSize >= 1
    requires forall k :: 0 <= k < |st0.primes| ==> st0.primes[k] >= 1
    ensures r.Err? ==> r.error == WidthOutOfRange && 9 in st0.disk.shards
    ensures r.Ok? && 3 <= start <= SearchLimit && st0.primes == PrimesBelow(start) ==>
              r.value.primes == PrimesBelow(LoopEnd(start, limit))
    ensures r.Ok? ==> st0.primes <= r.value.primes
    ensures r.Ok? ==> forall k :: 0 <= k < |r.value.primes| ==> r.value.primes[k] >= 1
    ensures r.Ok? && start < limit ==> |r.value.primes| - r.value.saved < groupSize
    ensures r.Ok? && 9 !in st0.disk.shards ==> 9 !in r.value.disk.shards
    ensures r.Ok? && LayoutKept(st0) ==> LayoutKept(r.value)
    ensures r.Ok? ==> KeepsBytes(st0.disk.shards, r.value.disk.shards)
  {
    var st := st0;
    ghost var complete := 3 <= start <= SearchLimit && st0.primes == PrimesBelow(start);
    var i := start;
    while i < limit
      invariant start <= i && i % 2 == 1
      invariant if start < limit then i <= limit + 1 else i == start
      invariant complete ==> i <= SearchLimit + 1 && st.primes == PrimesBelow(i)
      invariant st0.primes <= st.primes
      invariant forall k :: 0 <= k < |st.primes| ==> st.primes[k] >= 1
      invariant i != start ==> |st.primes| - st.saved < groupSize
      invariant 9 !in st0.disk.shards ==> 9 !in st.disk.shards
      invariant LayoutKept(st0) ==> LayoutKept(st)
      invariant KeepsBytes(st0.disk.shards, st.disk.shards)
      decreases limit - i
    {
      var next := Candidate(st, i, groupSize);
      if next.Err? {
        return Err(next.error);
      }
      st := next.value;
      OddStep(i);
      i := i + 2;
    }
    if complete && start < limit {
      if i == limit + 1 {
        DivModUnique(limit, 2, i / 2, 0);
        PrimesBelowEvenStep(limit);
      } else {
        assert i == limit;
      }
      assert st.primes == PrimesBelow(limit);
    }
    r := Ok(st);
  }

  /** Without a checkpoint the saved prefix, and so the layout it asks for, stays the same. */
  lemma SearchStepKeepsLayout(before: seq<u64>, after: seq<u64>, saved: nat, sh: map<nat, seq<byte>>)
    requires before <= after && saved <= |before|
    requires Ascending(before) && WidthsGapless(before) ==> sh == Layout(before[..saved])
    ensures Ascending(after) && WidthsGapless(after) ==> sh == Layout(after[..saved])
  {
    if Ascending(after) && WidthsGapless(after) {
      PrefixKeepsOrder(before, after);
      assert before[..saved] == after[..saved];
    }
  }

  /**
   * The checkpoint inside the candidate loop, lines 131-140: once `groupSize`
   * primes are unsaved, all of them are appended to their shards.
   */
  method Checkpoint(st: SieveState, groupSize: nat) returns (r: Result<SieveState>)
    requires groupSize >= 1
    ensures r.Err? ==> r.error == WidthOutOfRange && 9 in st.disk.shards
    ensures r.Ok? ==> r.value.primes == st.primes
    ensures r.Ok? ==> |st.primes| - r.value.saved < groupSize
    ensures r.Ok? ==> if st.saved + groupSize <= |st.primes| then r.value.saved == |st.primes| else r.value == st
    ensures r.Ok? && 9 !in st.disk.shards ==> 9 !in r.value.disk.shards
    ensures r.Ok? && LayoutKept(st) ==> LayoutKept(r.value)
    ensures |st.primes| < st.saved + groupSize ==> r == Ok(st)
    ensures st.saved + groupSize <= |st.primes| ==>
              && (r.Ok? <==> SaveSpec(st.disk, st.primes).Ok?)
              && (r.Ok? ==> r.value.disk == SaveSpec(st.disk, st.primes).value)
  {
    if st.saved + groupSize <= |st.primes| {
      var saving := SavePrimes(st.disk, st.primes);
      if 9 !in st.disk.shards {
        SaveWithoutNinthShard(st.disk, st.primes);
      }
      if saving.Err? {
        RunEndNine(st.disk.shards);
        return Err(saving.error);
      }
      if LayoutKept(st) && Ascending(st.primes) && WidthsGapless(st.primes) {
        SaveExtends(st.disk, st.primes[..st.saved], st.primes);
        assert st.primes[..|st.primes|] == st.primes;
      }
      r := Ok(SieveState(st.primes, |st.primes|, saving.value));
    } else {
      r := Ok(st);
    }
  }

  /** Where the search resumes: the primes in memory, the count already saved, and the first candidate. */
  datatype Start = Start(primes: seq<u64>, saved: nat, start: nat)

  /**
   * Lines 94-106 of `main`, after `load_primes`: the saved count is the number
   * loaded; an empty store or one ending in 2 restarts at 3 with just [2];
   * otherwise the search continues at the last value plus 2, in 64-bit
   * arithmetic. A start that is not odd fails the assertion of line 106.
   */
  function ResumePoint(loaded: seq<u64>): (r: Result<Start>)
    ensures r.Ok? ==> r.value.saved == |loaded| && r.value.start % 2 == 1 && r.value.start < 0x1_0000_0000_0000_0000
    ensures r.Ok? ==> r.value.primes == loaded || r.value.primes == [2]
    ensures r.Err? ==> r.error == EvenStart
  {
    var saved := |loaded|;
    var last: nat := if saved > 0 then loaded[saved - 1] else 2;
    if last == 2 then Ok(Start([2], saved, 3))
    else
      var start := (last + 2) % 0x1_0000_0000_0000_0000;
      if start % 2 == 1 then Ok(Start(loaded, saved, start)) else Err(EvenStart)
  }

  /**
   * The odd-start assertion fails exactly when the last stored value is even
   * and not 2: adding 2 modulo 2^64 keeps the parity, even when it wraps.
   */
  lemma ResumeFailsOnEven(loaded: seq<u64>)
    ensures ResumePoint(loaded).Err? <==>
              loaded != [] && loaded[|loaded| - 1] != 2 && loaded[|loaded| - 1] % 2 == 0
  {
    if loaded != [] {
      var last: nat := loaded[|loaded| - 1];
      var m := 0x1_0000_0000_0000_0000;
      if last + 2 < m {
        DivModUnique(last + 2, m, 0, last + 2);
        DivModUnique(last + 2, 2, last / 2 + 1, last % 2);
      } else {
        DivModUnique(last + 2, m, 1, last + 2 - m);
        assert last + 2 - m == last % 2;
      }
    }
  }

  /** The resume point `main` computes from the disk: load, then lines 94-106. */
  function ResumeSpec(d: Disk): Result<Start>
  {
    var loaded := LoadSpec(d, []);
    if loaded.Err? then Err(loaded.error) else ResumePoint(loaded.value)
  }

  /** Without a store the search starts at 3 with [2] in memory and nothing saved. */
  lemma ResumeFresh()
    ensures ResumeSpec(EmptyDisk) == Ok(Start([2], 0, 3))
    ensures [2] == PrimesBelow(3)
  {
    assert IsPrime(2);
  }

  /** No prime lies strictly between two consecutive entries of the primes below n. */
  lemma NoPrimeBetween(n: nat, i: nat, p: nat)
    requires n <= SearchLimit && 0 < i < |PrimesBelow(n)|
    requires PrimesBelow(n)[i - 1] < p < PrimesBelow(n)[i]
    ensures !IsPrime(p)
  {
    var ps := PrimesBelow(n);
    PrimesBelowAscending(n);
    forall k | 0 <= k < |ps|
      ensures ps[k] != p
    {
      if k < i - 1 {
        assert ps[k] < ps[i - 1];
      } else if k > i {
        assert ps[i] < ps[k];
      }
    }
    PrimesBelowMembers(n, ps[i]);
    PrimesBelowMembers(n, p);
  }

  /** Two consecutive primes of the search differ in byte width by at most one. */
  lemma NextPrimeWidth(n: nat, i: nat)
    requires n <= SearchLimit && 0 < i < |PrimesBelow(n)|
    ensures ByteWidth(PrimesBelow(n)[i]) <= ByteWidth(PrimesBelow(n)[i - 1]) + 1
  {
    var ps := PrimesBelow(n);
    var a, b := ps[i - 1], ps[i];
    var wa, wb := ByteWidth(a), ByteWidth(b);
    if wb > wa + 1 {
      PrimesBelowAscending(n);
      PrimesBelowMembers(n, b);
      Pow2Of8();
      Pow2Of16();
      Pow2Of32();
      Pow2Add(16, 8);
      ByteWidthIsLeast(a, wa);
      ByteWidthIsLeast(b, wb - 1);
      ByteWidthIsLeast(b, 4);
      if wa == 1 {
        Pow2Monotone(16, 8 * (wb - 1));
        Prime257();
        NoPrimeBetween(n, i, 257);
      } else {
        assert wa == 2 && wb == 4;
        Prime65537();
        NoPrimeBetween(n, i, 65537);
      }
    }
  }

  /**
   * The primes below any bound of the search skip no byte width: the list
   * starts at 2, and 257 and 65537 are primes of two and three bytes.
   */
  lemma PrimesGapless(n: nat)
    requires n <= SearchLimit
    ensures WidthsGapless(PrimesBelow(n))
  {
    var ps := PrimesBelow(n);
    if ps != [] {
      PrimesBelowMembers(n, ps[0]);
      PrimesBelowMembers(n, 2);
      ThreeIsPrime();
      PrimesBelowAscending(n);
      var k :| 0 <= k < |ps| && ps[k] == 2;
      assert ps[0] <= 2;
      Pow2Of8();
      ByteWidthIsLeast(ps[0], 1);
    }
    forall i | 0 < i < |ps|
      ensures ByteWidth(ps[i]) <= ByteWidth(ps[i - 1]) + 1
    {
      NextPrimeWidth(n, i);
    }
  }

  /**
   * Resuming from a store that holds every prime below n: nothing fails, the
   * primes in memory are every prime below the first candidate, that candidate
   * is odd and within the loop bound, and the saved count covers the store.
   */
  lemma ResumeFromCheckpoint(n: nat)
    requires 3 <= n <= SearchLimit
    ensures var r := ResumeSpec(Disk(true, Layout(PrimesBelow(n))));
            && r.Ok?
            && 3 <= r.value.start <= SearchLimit && r.value.start % 2 == 1
            && r.value.primes == PrimesBelow(r.value.start)
            && r.value.saved == |PrimesBelow(n)| <= |r.value.primes|
            && r.value.primes[..r.value.saved] == PrimesBelow(n)
  {
    LoadCheckpoint(n);
    ResumeAfterPrimes(n);
  }

  /** Loading the layout of every prime below n gives back that list. */
  lemma LoadCheckpoint(n: nat)
    requires 3 <= n <= SearchLimit
    ensures LoadSpec(Disk(true, Layout(PrimesBelow(n))), []) == Ok(PrimesBelow(n))
  {
    var ps := PrimesBelow(n);
    PrimesGapless(n);
    PrimesBelowAscending(n);
    forall x | x in ps
      ensures x >= 2
    {
      PrimesBelowMembers(n, x);
    }
    LoadLayout(ps);
  }

  /**
   * What resuming after the primes below n must give: an odd first candidate
   * within the loop bound, every prime below it in memory, and the saved count
   * covering exactly the primes below n.
   */
  ghost predicate ResumedAfter(n: nat, r: Result<Start>)
    requires n <= SearchLimit
  {
    && r.Ok?
    && 3 <= r.value.start <= SearchLimit && r.value.start % 2 == 1
    && r.value.primes == PrimesBelow(r.value.start)
    && r.value.saved == |PrimesBelow(n)| <= |r.value.primes|
    && r.value.primes[..r.value.saved] == PrimesBelow(n)
  }

  /** Lines 94-106 applied to every prime below n. */
  lemma ResumeAfterPrimes(n: nat)
    requires 3 <= n <= SearchLimit
    ensures ResumedAfter(n, ResumePoint(PrimesBelow(n)))
  {
    var ps := PrimesBelow(n);
    PrimesBelowMembers(n, 2);
    if ps[|ps| - 1] == 2 {
      ResumeAfterTwo(n);
    } else {
      ResumeAfterOddPrime(n, ps[|ps| - 1]);
    }
  }

  /** When 2 is the largest prime below n, the search restarts at 3 with [2] in memory. */
  lemma ResumeAfterTwo(n: nat)
    requires 3 <= n <= SearchLimit
    requires PrimesBelow(n) != [] && PrimesBelow(n)[|PrimesBelow(n)| - 1] == 2
    ensures ResumedAfter(n, ResumePoint(PrimesBelow(n)))
  {
    OnlyTwoBelowThree(n);
    assert ResumePoint([2]) == Ok(Start([2], 1, 3));
  }

  /** When an odd prime is the largest below n, the search continues two past it. */
  lemma ResumeAfterOddPrime(n: nat, last: nat)
    requires 3 <= n <= SearchLimit && PrimesBelow(n) != []
    requires last == PrimesBelow(n)[|PrimesBelow(n)| - 1] && last != 2
    ensures ResumedAfter(n, ResumePoint(PrimesBelow(n)))
  {
    var ps := PrimesBelow(n);
    PrimesBelowMembers(n, last);
    OddPrime(last);
    LastPrimeBelow(n, last);
    ResumeAfterOdd(ps, last);
    OddStep(last);
    var r := ResumePoint(ps);
    assert r.value == Start(ps, |ps|, last + 2);
    assert r.value.primes == PrimesBelow(r.value.start);
    assert r.value.primes[..r.value.saved] == ps;
  }

  /** A list of primes below n that ends in 2 is the list below 3. */
  lemma OnlyTwoBelowThree(n: nat)
    requires 3 <= n <= SearchLimit
    requires PrimesBelow(n) != [] && PrimesBelow(n)[|PrimesBelow(n)| - 1] == 2
    ensures n == 3 && PrimesBelow(n) == [2]
  {
    var ps := PrimesBelow(n);
    PrimesBelowAscending(n);
    assert forall k :: 0 <= k < |ps| ==> ps[k] <= 2;
    ThreeIsPrime();
    PrimesBelowMembers(n, 3);
  }

  /** After a list ending in an odd value below the loop bound, the search continues two further on. */
  lemma ResumeAfterOdd(loaded: seq<u64>, last: nat)
    requires loaded != [] && last == loaded[|loaded| - 1] && last % 2 == 1 && last < SearchLimit
    ensures ResumePoint(loaded) == Ok(Start(loaded, |loaded|, last + 2))
    ensures last + 2 <= SearchLimit
  {
    OddBelowOdd(last, SearchLimit);
    DivModUnique(last + 2, 0x1_0000_0000_0000_0000, 0, last + 2);
    OddStep(last);
  }

  /** The next candidate after the largest prime below n sees the same primes. */
  lemma LastPrimeBelow(n: nat, last: nat)
    requires 3 <= n <= SearchLimit && PrimesBelow(n) != []
    requires last == PrimesBelow(n)[|PrimesBelow(n)| - 1] && last % 2 == 1 && 3 <= last < n
    ensures PrimesBelow(last + 2) == PrimesBelow(n)
  {
    var ps := PrimesBelow(n);
    PrimesBelowAscending(n);
    assert forall k :: 0 <= k < |ps| ==> ps[k] <= last;
    forall x | last + 1 <= x < n
      ensures !IsPrime(x)
    {
      PrimesBelowMembers(n, x);
    }
    PrimesBelowGap(last + 1, n);
    DivModUnique(last + 1, 2, last / 2 + 1, 0);
    PrimesBelowEvenStep(last + 1);
  }

  /** Every value the search resumes with is at least 2: loading rejects 0 and 1. */
  lemma ResumeAboveOne(d: Disk)
    requires ResumeSpec(d).Ok?
    ensures var ps := ResumeSpec(d).value.primes;
            forall k :: 0 <= k < |ps| ==> ps[k] >= 2
  {
    LoadOutcomes(d, []);
    var loaded := LoadSpec(d, []).value;
    var ps := ResumeSpec(d).value.primes;
    if ps != [2] {
      assert d.dirExists && ps == loaded;
      forall k | 0 <= k < |ps|
        ensures ps[k] >= 2
      {
        assert ps[k] in loaded;
      }
    }
  }

  /** Resuming after [2, 3, 5, 7] starts at 9 with the four primes known and counted as saved. */
  lemma ResumeExample()
    ensures ResumePoint([2, 3, 5, 7]) == Ok(Start([2, 3, 5, 7], 4, 9))
    ensures ResumePoint([2]) == Ok(Start([2], 1, 3))
  {
  }

  /**
   * The stores from which a run starts knowing every prime below its first
   * candidate: no `primes/` directory at all, or the shards a complete run up
   * to some n leaves behind.
   */
  ghost predicate CompleteStore(d: Disk, n: nat)
  {
    d == EmptyDisk || (3 <= n <= SearchLimit && d == Disk(true, Layout(PrimesBelow(n))))
  }

  /**
   * Resuming from a complete store succeeds, knows every prime below the first
   * candidate, has no shard 9, and finds the saved prefix laid out on disk.
   */
  lemma CompleteResume(d: Disk, n: nat)
    requires CompleteStore(d, n)
    ensures ResumeSpec(d).Ok?
    ensures var s := ResumeSpec(d).value;
            && 3 <= s.start <= SearchLimit && s.primes == PrimesBelow(s.start)
            && 9 !in d.shards
            && LayoutKept(SieveState(s.primes, s.saved, d))
  {
    if d == EmptyDisk {
      ResumeFresh();
      assert Layout([]) == map[];
      assert [2][..0] == [];
    } else {
      var ps := PrimesBelow(n);
      PrimesBelowPrefix(n, SearchLimit);
      PrimesBelowAscending(SearchLimit);
      PrimesGapless(SearchLimit);
      PrefixKeepsOrder(ps, PrimesBelow(SearchLimit));
      ResumeFromCheckpoint(n);
      LayoutNoGaps(ps);
    }
  }

  /**
   * Lines 92-106 of `main` after `load_primes`: the resume point, or the
   * assertion that fails.
   */
  method Resume(d: Disk) returns (r: Result<Start>)
    requires ScannedShardsWhole(d.shards)
    ensures r == ResumeSpec(d)
  {
    var loaded := LoadPrimes(d, []);
    if loaded.Err? {
      return Err(loaded.error);
    }
    r := ResumePoint(loaded.value);
  }

  /**
   * The final `save_primes` of line 143: everything found is saved. It fails
   * only on a width-9 shard, and when the saved prefix was laid out on disk,
   * afterwards every prime found is.
   */
  method FinalSave(st: SieveState) returns (r: Result<SieveState>)
    ensures r.Err? ==> r.error == WidthOutOfRange && 9 in st.disk.shards
    ensures r.Ok? ==> r.value.primes == st.primes && r.value.saved == |st.primes| && r.value.disk.dirExists
    ensures 9 !in st.disk.shards ==> r.Ok?
    ensures r.Ok? <==> SaveSpec(st.disk, st.primes).Ok?
    ensures r.Ok? ==> r.value.disk == SaveSpec(st.disk, st.primes).value
    ensures r.Ok? ==> KeepsBytes(st.disk.shards, r.value.disk.shards)
    ensures LayoutKept(st) && Ascending(st.primes) && WidthsGapless(st.primes) ==>
              r == Ok(SieveState(st.primes, |st.primes|, Disk(true, Layout(st.primes))))
  {
    if LayoutKept(st) && Ascending(st.primes) && WidthsGapless(st.primes) {
      PrefixKeepsOrder(st.primes[..st.saved], st.primes);
      LayoutNoGaps(st.primes[..st.saved]);
    }
    if 9 !in st.disk.shards {
      SaveWithoutNinthShard(st.disk, st.primes);
    }
    var saving := SavePrimes(st.disk, st.primes);
    if saving.Err? {
      RunEndNine(st.disk.shards);
      return Err(saving.error);
    }
    if LayoutKept(st) && Ascending(st.primes) && WidthsGapless(st.primes) {
      SaveExtends(st.disk, st.primes[..st.saved], st.primes);
    }
    SaveKeepsAllBytes(st.disk, st.primes);
    r := Ok(SieveState(st.primes, |st.primes|, saving.value));
  }

  /**
   * `main`: load the store, compute the resume point (lines 92-106), run the
   * candidate loop with its checkpoints, and save once more (line 143). The run
   * fails only where loading or the odd-start assertion fails, or on a width-9
   * shard already on disk. From no store or a complete one, it ends knowing
   * exactly the primes below the loop bound, all of them laid out on disk.
   */
  method RunSieve(d: Disk, ghost n: nat) returns (r: Result<SieveState>)
    requires ScannedShardsWhole(d.shards)
    ensures ResumeSpec(d).Err? ==> r == Err(ResumeSpec(d).error)
    ensures r.Err? ==> ResumeSpec(d).Err? || (r.error == WidthOutOfRange && 9 in d.shards)
    ensures r.Ok? ==> ResumeSpec(d).Ok? && ResumeSpec(d).value.primes <= r.value.primes
    ensures r.Ok? ==> r.value.saved == |r.value.primes| && r.value.disk.dirExists
    ensures r.Ok? ==> KeepsBytes(d.shards, r.value.disk.shards)
    ensures CompleteStore(d, n) ==>
              var all := PrimesBelow(SearchLimit);
              r == Ok(SieveState(all, |all|, Disk(true, Layout(all))))
  {
    if CompleteStore(d, n) {
      CompleteResume(d, n);
    }
    var resume := Resume(d);
    if resume.Err? {
      return Err(resume.error);
    }
    ResumeAboveOne(d);
    r := SearchAndSave(resume.value, d);
  }

  /**
   * Lines 107-143 of `main` from a resume point: the candidate loop up to the
   * loop bound, then the final save. When every prime below the first candidate
   * is known, it ends knowing every prime below the bound, and when the saved
   * prefix is also laid out on disk, it ends with all of them laid out.
   */
  method SearchAndSave(s: Start, d: Disk) returns (r: Result<SieveState>)
    requires s.start % 2 == 1
    requires forall k :: 0 <= k < |s.primes| ==> s.primes[k] >= 1
    ensures r.Err? ==> r.error == WidthOutOfRange && 9 in d.shards
    ensures r.Ok? ==> s.primes <= r.value.primes && r.value.saved == |r.value.primes| && r.value.disk.dirExists
    ensures r.Ok? ==> KeepsBytes(d.shards, r.value.disk.shards)
    ensures 3 <= s.start <= SearchLimit && s.primes == PrimesBelow(s.start) && r.Ok? ==>
              r.value.primes == PrimesBelow(SearchLimit)
    ensures 3 <= s.start <= SearchLimit && s.primes == PrimesBelow(s.start) && 9 !in d.shards &&
            LayoutKept(SieveState(s.primes, s.saved, d)) ==>
              var all := PrimesBelow(SearchLimit);
              r == Ok(SieveState(all, |all|, Disk(true, Layout(all))))
  {
    var searched := Search(SieveState(s.primes, s.saved, d), s.start, SearchLimit, GroupSize);
    if searched.Err? {
      return Err(searched.error);
    }
    if 3 <= s.start <= SearchLimit && s.primes == PrimesBelow(s.start) {
      assert LoopEnd(s.start, SearchLimit) == SearchLimit;
      PrimesBelowAscending(SearchLimit);
      PrimesGapless(SearchLimit);
    }
    r := FinalSave(searched.value);
  }
}

=== FILE: store.dfy ===
/**
 * The persistent prime store of `prime_sieve.cpp`: `load_primes` and
 * `save_primes` over a modelled `primes/` directory.
 *
 * The directory is a value: whether it exists, and a map from each width w
 * whose file `primes/primes_<w>.bin` exists to that file's bytes. Reading a
 * file is a map lookup; appending to a file concatenates at its end (and
 * creates it when the key is absent).
 */
module PrimeStore {
  import opened Arith
  import opened Codec
  import opened Errors

  /**
   * Without the directory there are no shard files, so a value with
   * `dirExists == false` and shards describes no real file system. The model
   * never builds one: only `EmptyDisk` lacks the directory, and every save
   * returns a disk whose directory exists.
   */
  datatype Disk = Disk(dirExists: bool, shards: map<nat, seq<byte>>)

  /** No `primes/` directory at all. */
  const EmptyDisk := Disk(false, map[])

  /** The bytes of shard w, the empty file when it does not exist. */
  function Get(sh: map<nat, seq<byte>>, w: nat): seq<byte>
  {
    if w in sh then sh[w] else []
  }

  /**
   * Every shard of width 1 to 8 holds a whole number of entries: the decode
   * loop reads `file[j + k]` for every group it starts.
   */
  predicate WholeEntries(sh: map<nat, seq<byte>>)
  {
    forall w :: w in sh && 1 <= w <= 8 ==> |sh[w]| % w == 0
  }

  /**
   * The scan `for (i = 1; exists(primes_<i>.bin); i++)` started at width i:
   * the last width of the unbroken run of existing shards, or 9 when the scan
   * reaches width 9, where the width assertion fails.
   */
  function RunEnd(sh: map<nat, seq<byte>>, i: nat): nat
    requires 1 <= i <= 9
    decreases 9 - i
  {
    if i !in sh then i - 1
    else if i == 9 then 9
    else RunEnd(sh, i + 1)
  }

  lemma {:induction false} RunEndFacts(sh: map<nat, seq<byte>>, i: nat)
    requires 1 <= i <= 9
    ensures i - 1 <= RunEnd(sh, i) <= 9
    ensures forall v :: i <= v <= RunEnd(sh, i) ==> v in sh
    ensures RunEnd(sh, i) < 9 ==> RunEnd(sh, i) + 1 !in sh
    decreases 9 - i
  {
    if i in sh && i < 9 {
      RunEndFacts(sh, i + 1);
    }
  }

  /** The scan from width 1 stops exactly after the last width of an unbroken run 1..k. */
  lemma RunEndIs(sh: map<nat, seq<byte>>, k: nat)
    requires k <= 8
    requires forall v :: 1 <= v <= k ==> v in sh
    requires k + 1 !in sh
    ensures RunEnd(sh, 1) == k
  {
    RunEndFacts(sh, 1);
  }

  /** The scan fails exactly when shards 1 to 9 all exist. */
  lemma RunEndNine(sh: map<nat, seq<byte>>)
    ensures RunEnd(sh, 1) == 9 <==> forall v :: 1 <= v <= 9 ==> v in sh
  {
    RunEndFacts(sh, 1);
    if RunEnd(sh, 1) < 9 {
      assert RunEnd(sh, 1) + 1 !in sh;
    }
  }

  /**
   * Every shard the loading loop opens, widths 1 up to the first missing one,
   * holds a whole number of entries, so `file[j + k]` stays inside the file.
   * Shards behind the first missing width are never opened, and when shards
   * 1 to 9 all exist the width assertion fails before any file is read.
   */
  predicate ScannedShardsWhole(sh: map<nat, seq<byte>>)
  {
    RunEnd(sh, 1) <= 8 ==> forall w :: 1 <= w <= RunEnd(sh, 1) ==> |Get(sh, w)| % w == 0
  }

  /** The format invariant that saving keeps covers every shard the loading loop opens. */
  lemma WholeEntriesScanned(sh: map<nat, seq<byte>>)
    requires WholeEntries(sh)
    ensures ScannedShardsWhole(sh)
  {
    RunEndFacts(sh, 1);
  }

  /** Sum of `file_size / w` over the shards of widths 1..k. */
  function StoredCountTo(sh: map<nat, seq<byte>>, k: nat): nat
  {
    if k == 0 then 0 else StoredCountTo(sh, k - 1) + |Get(sh, k)| / k
  }

  /** The number of entries the store holds, as `load_primes` and `save_primes` count it. */
  function StoredCount(sh: map<nat, seq<byte>>): Result<nat>
  {
    var k := RunEnd(sh, 1);
    if k == 9 then Err(WidthOutOfRange) else Ok(StoredCountTo(sh, k))
  }

  /**
   * The counting loop of `load_primes` (the size it reserves) and of
   * `save_primes` (the number of primes already saved).
   */
  method CountStored(sh: map<nat, seq<byte>>) returns (r: Result<nat>)
    ensures r == StoredCount(sh)
    ensures r.Err? <==> forall v :: 1 <= v <= 9 ==> v in sh
    ensures r.Err? ==> r.error == WidthOutOfRange
  {
    var count := 0;
    var i := 1;
    while i in sh
      invariant 1 <= i <= 9
      invariant RunEnd(sh, i) == RunEnd(sh, 1)
      invariant count == StoredCountTo(sh, i - 1)
      decreases 9 - i
    {
      if i > 8 {
        RunEndNine(sh);
        return Err(WidthOutOfRange);
      }
      count := count + |sh[i]| / i;
      i := i + 1;
    }
    RunEndNine(sh);
    r := Ok(count);
  }

  /** The values of a shard of width w: consecutive w-byte big-endian groups, in file order. */
  function DecodeShard(bs: seq<byte>, w: nat): (ps: seq<u64>)
    requires 1 <= w <= 8
    decreases |bs|
  {
    if |bs| < w then []
    else
      var n := DecodeBE(bs[|bs| - w..]);
      Pow2Within64(w);
      DecodeShard(bs[..|bs| - w], w) + [n]
  }

  lemma Pow2Within64(w: nat)
    requires w <= 8
    ensures Pow2(8 * w) <= 0x1_0000_0000_0000_0000
  {
    Pow2Of64();
    if w < 8 {
      Pow2Increasing(8 * w, 64);
    }
  }

  /** The values of shards 1..k, one shard after the other. */
  function LoadedTo(sh: map<nat, seq<byte>>, k: nat): seq<u64>
    requires k <= 8
    requires forall v :: 1 <= v <= k ==> v in sh
  {
    if k == 0 then [] else LoadedTo(sh, k - 1) + DecodeShard(sh[k], k)
  }

  /**
   * The loop of `load_primes` over one shard file of width w: each group of w
   * bytes, read with the shift-or loop, becomes one value.
   */
  method DecodeFile(file: seq<byte>, w: nat) returns (vals: seq<u64>)
    requires 1 <= w <= 8 && |file| % w == 0
    ensures vals == DecodeShard(file, w)
  {
    vals := [];
    var j := 0;
    while j < |file|
      invariant 0 <= j <= |file|
      invariant (|file| - j) % w == 0
      invariant vals == DecodeShard(file[..j], w)
      decreases |file| - j
    {
      MultipleAtLeast(|file| - j, w);
      MultipleLess(|file| - j, w);
      var n := DecodeBigEndian(file, j, w);
      DecodeShardSnoc(file, j, w);
      vals := vals + [n];
      j := j + w;
    }
    assert file[..|file|] == file;
  }

  /** Reading one more group of w bytes adds its value at the end. */
  lemma DecodeShardSnoc(bs: seq<byte>, j: nat, w: nat)
    requires 1 <= w <= 8 && j + w <= |bs|
    ensures DecodeShard(bs[..j + w], w) == DecodeShard(bs[..j], w) + [DecodeBE(bs[j..j + w])]
  {
    assert bs[..j + w][..j] == bs[..j];
    assert bs[..j + w][j..] == bs[j..j + w];
  }

  /** What `load_primes` leaves in `primes`, or the assertion it fails. */
  function LoadSpec(d: Disk, primes: seq<u64>): Result<seq<u64>>
  {
    if !d.dirExists then Ok(primes)
    else
      var k := RunEnd(d.shards, 1);
      if k == 9 then Err(WidthOutOfRange)
      else
        RunEndFacts(d.shards, 1);
        var all := primes + LoadedTo(d.shards, k);
        if 0 in all then Err(StoredZero)
        else if 1 in all then Err(StoredOne)
        else Ok(all)
  }

  /**
   * Loading leaves `primes` alone without a directory, fails on width 9 exactly
   * when shards 1 to 9 all exist, and otherwise only appends, and only values of at least 2.
   */
  lemma LoadOutcomes(d: Disk, primes: seq<u64>)
    ensures !d.dirExists ==> LoadSpec(d, primes) == Ok(primes)
    ensures LoadSpec(d, primes) == Err(WidthOutOfRange) <==>
              d.dirExists && forall v :: 1 <= v <= 9 ==> v in d.shards
    ensures LoadSpec(d, primes).Ok? ==> primes <= LoadSpec(d, primes).value
    ensures d.dirExists && LoadSpec(d, primes).Ok? ==> forall p :: p in LoadSpec(d, primes).value ==> p >= 2
  {
    RunEndNine(d.shards);
    var r := LoadSpec(d, primes);
    if d.dirExists && r.Ok? {
      RunEndFacts(d.shards, 1);
      var all := primes + LoadedTo(d.shards, RunEnd(d.shards, 1));
      assert r.value == all && 0 !in all && 1 !in all;
      forall p | p in r.value
        ensures p >= 2
      {
        assert p != 0 && p != 1;
      }
    }
  }

  /**
   * `load_primes`: appends to `primes` the values of shards 1, 2, ... in turn,
   * stopping at the first missing width, then checks that no value is 0 or 1.
   */
  method LoadPrimes(d: Disk, primes: seq<u64>) returns (r: Result<seq<u64>>)
    requires ScannedShardsWhole(d.shards)
    ensures r == LoadSpec(d, primes)
  {
    if !d.dirExists {
      return Ok(primes);
    }
    RunEndNine(d.shards);
    var counted := CountStored(d.shards);
    if counted.Err? {
      return Err(counted.error);
    }
    var all := ReadShards(d.shards, primes);
    r := CheckLoaded(all);
  }

  /**
   * The second loop of `load_primes`: shards 1, 2, ... up to the first missing
   * one are decoded in turn and appended to the primes in memory.
   */
  method ReadShards(sh: map<nat, seq<byte>>, primes: seq<u64>) returns (out: seq<u64>)
    requires ScannedShardsWhole(sh) && RunEnd(sh, 1) <= 8
    ensures RunEnd(sh, 1) <= 8 && (forall v :: 1 <= v <= RunEnd(sh, 1) ==> v in sh)
    ensures out == primes + LoadedTo(sh, RunEnd(sh, 1))
  {
    RunEndFacts(sh, 1);
    ghost var k := RunEnd(sh, 1);
    var loaded := [];
    var i := 1;
    while i in sh
      invariant 1 <= i <= k + 1
      invariant loaded == LoadedTo(sh, i - 1)
      decreases 9 - i
    {
      assert i <= 8 && Get(sh, i) == sh[i];
      var vals := DecodeFile(sh[i], i);
      LoadedToNext(sh, i, k);
      loaded := loaded + vals;
      i := i + 1;
    }
    out := primes + loaded;
  }

  lemma LoadedToNext(sh: map<nat, seq<byte>>, i: nat, k: nat)
    requires 1 <= i <= k <= 8
    requires forall v :: 1 <= v <= k ==> v in sh
    ensures LoadedTo(sh, i) == LoadedTo(sh, i - 1) + DecodeShard(sh[i], i)
  {
  }

  /** The two closing loops of `load_primes`: no value may be 0, then none may be 1. */
  method CheckLoaded(all: seq<u64>) returns (r: Result<seq<u64>>)
    ensures r == if 0 in all then Err(StoredZero) else if 1 in all then Err(StoredOne) else Ok(all)
  {
    for k := 0 to |all|
      invariant forall m :: 0 <= m < k ==> all[m] != 0
    {
      if all[k] == 0 {
        return Err(StoredZero);
      }
    }
    for k := 0 to |all|
      invariant forall m :: 0 <= m < k ==> all[m] != 1
    {
      if all[k] == 1 {
        return Err(StoredOne);
      }
    }
    r := Ok(all);
  }

  /** The shards after `append_file` of the encoding of p to the shard named by its own width. */
  function Append(sh: map<nat, seq<byte>>, p: u64): map<nat, seq<byte>>
  {
    var w := ByteWidth(p);
    sh[w := Get(sh, w) + EncodeBE(p, w)]
  }

  /** The shards after appending every value of ps in order. */
  function AppendAll(sh: map<nat, seq<byte>>, ps: seq<u64>): map<nat, seq<byte>>
  {
    if ps == [] then sh else Append(AppendAll(sh, ps[..|ps| - 1]), ps[|ps| - 1])
  }

  lemma AppendAllSnoc(sh: map<nat, seq<byte>>, ps: seq<u64>, c: nat, i: nat)
    requires c <= i < |ps|
    ensures AppendAll(sh, ps[c..i + 1]) == Append(AppendAll(sh, ps[c..i]), ps[i])
  {
    assert ps[c..i + 1][..i - c] == ps[c..i];
  }

  /**
   * What `save_primes` leaves on disk, or the assertion it fails: the directory
   * exists, and the values from index `StoredCount` on are appended.
   */
  function SaveSpec(d: Disk, primes: seq<u64>): Result<Disk>
  {
    var k := RunEnd(d.shards, 1);
    if k == 9 then Err(WidthOutOfRange)
    else
      var c := StoredCountTo(d.shards, k);
      Ok(Disk(true, if c <= |primes| then AppendAll(d.shards, primes[c..]) else d.shards))
  }

  /**
   * The body of the save loop for one prime P: its byte width NB, its NB
   * big-endian bytes, appended to shard NB.
   */
  method SaveOne(sh: map<nat, seq<byte>>, p: u64) returns (next: map<nat, seq<byte>>)
    ensures next == Append(sh, p)
  {
    var nb := NumBytes(p);
    var data := EncodeBigEndian(p, nb);
    next := sh[nb := (if nb in sh then sh[nb] else []) + data];
  }

  /**
   * `save_primes`: creates the directory if needed, counts the entries already
   * stored, and appends each later value to the shard of its own width.
   */
  method SavePrimes(d: Disk, primes: seq<u64>) returns (r: Result<Disk>)
    ensures r == SaveSpec(d, primes)
  {
    var sh := d.shards;
    var counted := CountStored(sh);
    if counted.Err? {
      return Err(counted.error);
    }
    var c := counted.value;
    if c > |primes| {
      return Ok(Disk(true, sh));
    }
    var i := c;
    while i < |primes|
      invariant c <= i <= |primes|
      invariant sh == AppendAll(d.shards, primes[c..i])
    {
      AppendAllSnoc(d.shards, primes, c, i);
      sh := SaveOne(sh, primes[i]);
      i := i + 1;
    }
    assert primes[c..i] == primes[c..];
    r := Ok(Disk(true, sh));
  }
}

=== FILE: store_props.dfy ===
/**
 * What `save_primes` and `load_primes` promise together: saving appends only
 * the values not yet stored, each to the shard of its own width; saving twice
 * is saving once; and loading what was saved gives the sequence back.
 */
module StoreProperties {
  import opened Arith
  import opened Codec
  import opened Errors
  import opened PrimeStore

  /** The bytes of ps, each value written as w big-endian bytes. */
  function EncodeAll(ps: seq<u64>, w: nat): seq<byte>
  {
    if ps == [] then [] else EncodeAll(ps[..|ps| - 1], w) + EncodeBE(ps[|ps| - 1], w)
  }

  /** The values of ps whose byte width is w, in order. */
  function OfWidth(ps: seq<u64>, w: nat): seq<u64>
  {
    if ps == [] then []
    else OfWidth(ps[..|ps| - 1], w) + (if ByteWidth(ps[|ps| - 1]) == w then [ps[|ps| - 1]] else [])
  }

  /** How many values of t have a byte width in 1..m. */
  function CountWidthsUpTo(t: seq<u64>, m: nat): nat
  {
    if m == 0 then 0 else CountWidthsUpTo(t, m - 1) + |OfWidth(t, m)|
  }

  /** Every shard lies in the unbroken run 1..k that the width scan walks, and k <= 8. */
  predicate NoGaps(sh: map<nat, seq<byte>>)
  {
    RunEnd(sh, 1) <= 8 && forall w :: w in sh ==> 1 <= w <= RunEnd(sh, 1)
  }

  lemma {:induction false} EncodeAllLength(ps: seq<u64>, w: nat)
    ensures |EncodeAll(ps, w)| == w * |ps|
  {
    if ps != [] {
      EncodeAllLength(ps[..|ps| - 1], w);
      assert w * (|ps| - 1) + w == w * |ps|;
    }
  }

  lemma EncodeAllSnoc(ps: seq<u64>, x: u64, w: nat)
    ensures EncodeAll(ps + [x], w) == EncodeAll(ps, w) + EncodeBE(x, w)
  {
    assert (ps + [x])[..|ps|] == ps;
  }

  lemma OfWidthSnoc(ps: seq<u64>, x: u64, w: nat)
    ensures OfWidth(ps + [x], w) == OfWidth(ps, w) + (if ByteWidth(x) == w then [x] else [])
  {
    assert (ps + [x])[..|ps|] == ps;
  }

  /** OfWidth keeps exactly the values of width w. */
  lemma {:induction false} OfWidthMembers(ps: seq<u64>, w: nat, x: u64)
    ensures x in OfWidth(ps, w) <==> x in ps && ByteWidth(x) == w
  {
    if ps != [] {
      var init := ps[..|ps| - 1];
      OfWidthMembers(init, w, x);
      assert ps == init + [ps[|ps| - 1]];
    }
  }

  /** Appending one value touches only the shard of its own width, and only at its end. */
  lemma GetAppend(a: map<nat, seq<byte>>, x: u64, w: nat)
    ensures Get(Append(a, x), w) == Get(a, w) + (if ByteWidth(x) == w then EncodeBE(x, w) else [])
    ensures w in Append(a, x) <==> w in a || ByteWidth(x) == w
  {
  }

  /**
   * After appending ps, shard w holds its old bytes followed by the encodings of
   * the values of ps of width w, in order; it exists exactly when it existed
   * before or one of them has width w.
   */
  lemma AppendAllAt(sh: map<nat, seq<byte>>, ps: seq<u64>, w: nat)
    ensures Get(AppendAll(sh, ps), w) == Get(sh, w) + EncodeAll(OfWidth(ps, w), w)
    ensures w in AppendAll(sh, ps) <==> w in sh || OfWidth(ps, w) != []
  {
    AppendAllBytes(sh, ps, w);
    AppendAllKeys(sh, ps, w);
  }

  lemma {:induction false} AppendAllBytes(sh: map<nat, seq<byte>>, ps: seq<u64>, w: nat)
    ensures Get(AppendAll(sh, ps), w) == Get(sh, w) + EncodeAll(OfWidth(ps, w), w)
  {
    if ps != [] {
      var init, x := ps[..|ps| - 1], ps[|ps| - 1];
      AppendAllBytes(sh, init, w);
      assert ps == init + [x];
      AppendOneBytes(sh, init, x, w);
    }
  }

  /** The step of AppendAllBytes: one more value adds its encoding to its own shard only. */
  lemma AppendOneBytes(sh: map<nat, seq<byte>>, init: seq<u64>, x: u64, w: nat)
    requires Get(AppendAll(sh, init), w) == Get(sh, w) + EncodeAll(OfWidth(init, w), w)
    ensures Get(AppendAll(sh, init + [x]), w) == Get(sh, w) + EncodeAll(OfWidth(init + [x], w), w)
  {
    var a := AppendAll(sh, init);
    assert AppendAll(sh, init + [x]) == Append(a, x) by {
      assert (init + [x])[..|init|] == init;
    }
    GetAppend(a, x, w);
    OfWidthSnoc(init, x, w);
    if ByteWidth(x) == w {
      var g, e0, e := Get(sh, w), EncodeAll(OfWidth(init, w), w), EncodeBE(x, w);
      ConcatAssoc(g, e0, e);
      EncodeAllSnoc(OfWidth(init, w), x, w);
    } else {
      assert OfWidth(init + [x], w) == OfWidth(init, w);
    }
  }

  lemma ConcatAssoc(a: seq<byte>, b: seq<byte>, c: seq<byte>)
    ensures (a + b) + c == a + (b + c)
  {
  }

  lemma {:induction false} AppendAllKeys(sh: map<nat, seq<byte>>, ps: seq<u64>, w: nat)
    ensures w in AppendAll(sh, ps) <==> w in sh || OfWidth(ps, w) != []
  {
    if ps != [] {
      var init, x := ps[..|ps| - 1], ps[|ps| - 1];
      AppendAllKeys(sh, init, w);
      GetAppend(AppendAll(sh, init), x, w);
    }
  }

  /** Appending x and then y is appending x + y. */
  lemma {:induction false} AppendAllConcat(sh: map<nat, seq<byte>>, x: seq<u64>, y: seq<u64>)
    ensures AppendAll(AppendAll(sh, x), y) == AppendAll(sh, x + y)
  {
    if y != [] {
      var init := y[..|y| - 1];
      AppendAllConcat(sh, x, init);
      assert (x + y)[..|x + y| - 1] == x + init;
    } else {
      assert x + y == x;
    }
  }

  /**
   * `save_primes` appends exactly the values from the stored count on: shard w
   * keeps its old bytes as a prefix and gains the encodings of those values of
   * width w; no other shard changes.
   */
  lemma SaveAppendsDelta(d: Disk, primes: seq<u64>, w: nat)
    requires StoredCount(d.shards).Ok? && StoredCount(d.shards).value <= |primes|
    ensures SaveSpec(d, primes).Ok?
    ensures var after := SaveSpec(d, primes).value.shards;
            var tail := primes[StoredCount(d.shards).value..];
            && Get(after, w) == Get(d.shards, w) + EncodeAll(OfWidth(tail, w), w)
            && (w in after <==> w in d.shards || OfWidth(tail, w) != [])
  {
    AppendAllAt(d.shards, primes[StoredCount(d.shards).value..], w);
  }

  /** Saving never changes bytes already on disk and never removes a shard. */
  lemma SaveKeepsStoredBytes(d: Disk, primes: seq<u64>, w: nat)
    requires SaveSpec(d, primes).Ok? && w in d.shards
    ensures w in SaveSpec(d, primes).value.shards
    ensures d.shards[w] <= SaveSpec(d, primes).value.shards[w]
  {
    var k := RunEnd(d.shards, 1);
    var c := StoredCountTo(d.shards, k);
    if c <= |primes| {
      AppendAllAt(d.shards, primes[c..], w);
    }
  }

  /** Every shard of `before` is still there in `after`, with its old bytes as a prefix. */
  predicate KeepsBytes(before: map<nat, seq<byte>>, after: map<nat, seq<byte>>)
  {
    forall w :: w in before ==> w in after && before[w] <= after[w]
  }

  /** Saving keeps every byte already on disk, in every shard at once. */
  lemma SaveKeepsAllBytes(d: Disk, primes: seq<u64>)
    requires SaveSpec(d, primes).Ok?
    ensures KeepsBytes(d.shards, SaveSpec(d, primes).value.shards)
  {
    forall w | w in d.shards
      ensures w in SaveSpec(d, primes).value.shards && d.shards[w] <= SaveSpec(d, primes).value.shards[w]
    {
      SaveKeepsStoredBytes(d, primes, w);
    }
  }

  /** Appending keeps every shard a whole number of entries: shard w grows by w bytes per value. */
  lemma AppendAllWhole(sh: map<nat, seq<byte>>, t: seq<u64>)
    requires WholeEntries(sh)
    ensures WholeEntries(AppendAll(sh, t))
  {
    forall w | w in AppendAll(sh, t) && 1 <= w <= 8
      ensures |AppendAll(sh, t)[w]| % w == 0
    {
      AppendAllAt(sh, t, w);
      EncodeAllLength(OfWidth(t, w), w);
      var a, n := |Get(sh, w)|, |OfWidth(t, w)|;
      assert |AppendAll(sh, t)[w]| == a + w * n;
      MultipleAdd(a, w, n);
    }
  }

  /** Saving keeps every shard a whole number of entries, so a later load reads only whole values. */
  lemma SaveKeepsWholeEntries(d: Disk, primes: seq<u64>)
    requires WholeEntries(d.shards) && SaveSpec(d, primes).Ok?
    ensures WholeEntries(SaveSpec(d, primes).value.shards)
  {
    var c := StoredCountTo(d.shards, RunEnd(d.shards, 1));
    if c <= |primes| {
      AppendAllWhole(d.shards, primes[c..]);
    }
  }

  lemma {:induction false} CountWidthsSnoc(t: seq<u64>, x: u64, m: nat)
    ensures CountWidthsUpTo(t + [x], m) == CountWidthsUpTo(t, m) + (if 1 <= ByteWidth(x) <= m then 1 else 0)
  {
    OfWidthSnoc(t, x, m);
    if m > 0 {
      CountWidthsSnoc(t, x, m - 1);
    }
  }

  /** When every width of t is at most m, the per-width counts add up to |t|. */
  lemma {:induction false} CountWidthsAll(t: seq<u64>, m: nat)
    requires forall x :: x in t ==> ByteWidth(x) <= m
    ensures CountWidthsUpTo(t, m) == |t|
  {
    if t == [] {
      CountWidthsEmpty(m);
    } else {
      var init, x := t[..|t| - 1], t[|t| - 1];
      assert t == init + [x];
      CountWidthsAll(init, m);
      CountWidthsSnoc(init, x, m);
    }
  }

  lemma {:induction false} CountWidthsEmpty(m: nat)
    ensures CountWidthsUpTo([], m) == 0
  {
    if m > 0 {
      CountWidthsEmpty(m - 1);
    }
  }

  /** Appending t adds to the count of shards 1..m one entry per value of t whose width is in 1..m. */
  lemma {:induction false} CountAfterAppend(sh: map<nat, seq<byte>>, t: seq<u64>, m: nat)
    ensures StoredCountTo(AppendAll(sh, t), m) == StoredCountTo(sh, m) + CountWidthsUpTo(t, m)
  {
    if m > 0 {
      ShardGrowth(sh, t, m);
      CountAfterAppend(sh, t, m - 1);
    }
  }

  /** Appending t adds to shard m one m-byte entry per value of t of width m. */
  lemma ShardGrowth(sh: map<nat, seq<byte>>, t: seq<u64>, m: nat)
    requires m > 0
    ensures |Get(AppendAll(sh, t), m)| / m == |Get(sh, m)| / m + |OfWidth(t, m)|
  {
    var n, stored := |OfWidth(t, m)|, Get(sh, m);
    var grown := Get(AppendAll(sh, t), m);
    assert grown == stored + EncodeAll(OfWidth(t, m), m) by {
      AppendAllBytes(sh, t, m);
    }
    assert |grown| == |stored| + m * n by {
      EncodeAllLength(OfWidth(t, m), m);
    }
    DivAddMultiple(|stored|, m, n);
  }

  /** Widths beyond the last shard add nothing to the count. */
  lemma {:induction false} CountBeyond(sh: map<nat, seq<byte>>, k: nat, m: nat)
    requires k <= m
    requires forall w :: w in sh ==> w <= k
    ensures StoredCountTo(sh, m) == StoredCountTo(sh, k)
  {
    if k < m {
      CountBeyond(sh, k, m - 1);
      assert Get(sh, m) == [];
      assert 0 / m == 0;
    }
  }

  /** Adding shards never shortens the unbroken run the width scan walks. */
  lemma {:induction false} RunEndGrows(a: map<nat, seq<byte>>, b: map<nat, seq<byte>>, i: nat)
    requires 1 <= i <= 9
    requires forall w :: w in a ==> w in b
    ensures RunEnd(a, i) <= RunEnd(b, i)
    decreases 9 - i
  {
    if i !in a {
      RunEndFacts(b, i);
    } else if i < 9 {
      RunEndGrows(a, b, i + 1);
    }
  }

  /** Counting further shards never lowers the count. */
  lemma {:induction false} StoredCountGrows(sh: map<nat, seq<byte>>, k: nat, m: nat)
    requires k <= m
    ensures StoredCountTo(sh, k) <= StoredCountTo(sh, m)
  {
    if k < m {
      StoredCountGrows(sh, k, m - 1);
    }
  }

  /**
   * Calling `save_primes` a second time with the same values changes nothing,
   * whenever the store the first call leaves has no missing width: its count
   * then reaches |primes| at least, so nothing is appended again.
   */
  lemma SaveIdempotent(d: Disk, primes: seq<u64>)
    requires SaveSpec(d, primes).Ok? && NoGaps(SaveSpec(d, primes).value.shards)
    ensures SaveSpec(SaveSpec(d, primes).value, primes) == SaveSpec(d, primes)
  {
    var sh := d.shards;
    var k := RunEnd(sh, 1);
    var c := StoredCountTo(sh, k);
    if c <= |primes| {
      var t := primes[c..];
      var after := AppendAll(sh, t);
      var m := RunEnd(after, 1);
      forall w | w in sh
        ensures w in after
      {
        AppendAllKeys(sh, t, w);
      }
      RunEndGrows(sh, after, 1);
      CountAfterAppend(sh, t, m);
      StoredCountGrows(sh, k, m);
      forall x | x in t
        ensures ByteWidth(x) <= m
      {
        OfWidthMembers(t, ByteWidth(x), x);
        AppendAllAt(sh, t, ByteWidth(x));
      }
      CountWidthsAll(t, m);
      assert StoredCountTo(after, m) >= |primes|;
      if StoredCountTo(after, m) == |primes| {
        assert primes[|primes|..] == [];
      }
    }
  }

  /** Strictly increasing, as the sieve produces its primes. */
  predicate Ascending(ps: seq<u64>)
  {
    forall i, j :: 0 <= i < j < |ps| ==> ps[i] < ps[j]
  }

  /**
   * The byte widths of ps start at 1 and never skip a width: the condition under
   * which the shards written for ps form the unbroken run the width scan expects.
   */
  predicate WidthsGapless(ps: seq<u64>)
  {
    && (ps != [] ==> ByteWidth(ps[0]) == 1)
    && forall i :: 0 < i < |ps| ==> ByteWidth(ps[i]) <= ByteWidth(ps[i - 1]) + 1
  }

  /** The shards that saving ps into an empty directory writes. */
  function Layout(ps: seq<u64>): map<nat, seq<byte>>
  {
    AppendAll(map[], ps)
  }

  /** The byte width of the last value, 0 for no values. */
  function LastWidth(ps: seq<u64>): nat
  {
    if ps == [] then 0 else ByteWidth(ps[|ps| - 1])
  }

  /** The values of ps whose byte width is at most m, in order. */
  function NarrowerThan(ps: seq<u64>, m: nat): seq<u64>
  {
    if ps == [] then []
    else NarrowerThan(ps[..|ps| - 1], m) + (if ByteWidth(ps[|ps| - 1]) <= m then [ps[|ps| - 1]] else [])
  }

  /** The last value of an ascending sequence has the largest width. */
  lemma AscendingWidths(ps: seq<u64>, x: u64)
    requires Ascending(ps) && x in ps
    ensures ByteWidth(x) <= LastWidth(ps)
  {
    var i :| 0 <= i < |ps| && ps[i] == x;
    ByteWidthMonotone(x, ps[|ps| - 1]);
  }

  lemma PrefixKeepsOrder(a: seq<u64>, b: seq<u64>)
    requires a <= b && Ascending(b) && WidthsGapless(b)
    ensures Ascending(a) && WidthsGapless(a)
  {
    assert forall i :: 0 <= i < |a| ==> a[i] == b[i];
  }

  /** An ascending, gapless ps has values of width w exactly for the widths 1 to the width of its last value. */
  lemma {:induction false} WidthsPresent(ps: seq<u64>, w: nat)
    requires Ascending(ps) && WidthsGapless(ps)
    ensures OfWidth(ps, w) != [] <==> 1 <= w <= LastWidth(ps)
  {
    if ps != [] {
      var init, x := ps[..|ps| - 1], ps[|ps| - 1];
      PrefixKeepsOrder(init, ps);
      WidthsPresent(init, w);
      if init != [] {
        var y := ps[|ps| - 2];
        assert y == init[|init| - 1];
        ByteWidthMonotone(y, x);
        assert ByteWidth(x) <= ByteWidth(y) + 1;
      }
    }
  }

  /** Shard w of the layout of ps exists exactly for the widths 1 to the width of the last value. */
  lemma LayoutShape(ps: seq<u64>, w: nat)
    requires Ascending(ps) && WidthsGapless(ps)
    ensures OfWidth(ps, w) != [] <==> 1 <= w <= LastWidth(ps)
    ensures w in Layout(ps) <==> 1 <= w <= LastWidth(ps)
  {
    WidthsPresent(ps, w);
    AppendAllKeys(map[], ps, w);
  }

  /** The layout of ps has no gaps and the width scan stops at the width of the last value. */
  lemma LayoutNoGaps(ps: seq<u64>)
    requires Ascending(ps) && WidthsGapless(ps)
    ensures NoGaps(Layout(ps))
    ensures RunEnd(Layout(ps), 1) == LastWidth(ps)
  {
    var sh, k := Layout(ps), LastWidth(ps);
    if ps != [] {
      ByteWidthFits(ps[|ps| - 1]);
    }
    forall v | 1 <= v <= k + 1
      ensures v in sh <==> v <= k
    {
      LayoutShape(ps, v);
    }
    RunEndIs(sh, k);
    forall w | w in sh
      ensures 1 <= w <= k
    {
      LayoutShape(ps, w);
    }
  }

  /** The layout of ps stores exactly |ps| entries. */
  lemma CountLayout(ps: seq<u64>)
    requires Ascending(ps) && WidthsGapless(ps)
    ensures StoredCount(Layout(ps)) == Ok(|ps|)
  {
    var k := LastWidth(ps);
    LayoutNoGaps(ps);
    CountAfterAppend(map[], ps, k);
    CountBeyond(map[], 0, k);
    forall x | x in ps
      ensures ByteWidth(x) <= k
    {
      AscendingWidths(ps, x);
    }
    CountWidthsAll(ps, k);
  }

  /**
   * Checkpointing: when the disk holds the layout of a prefix a of b, saving b
   * leaves it holding the layout of b.
   */
  lemma SaveExtends(d: Disk, a: seq<u64>, b: seq<u64>)
    requires d.shards == Layout(a) && a <= b
    requires Ascending(b) && WidthsGapless(b)
    ensures SaveSpec(d, b) == Ok(Disk(true, Layout(b)))
  {
    PrefixKeepsOrder(a, b);
    CountLayout(a);
    SaveAfterCount(d, b, |a|);
    LayoutExtends(a, b);
  }

  /** Saving b onto a store that counts c entries appends b[c..]. */
  lemma SaveAfterCount(d: Disk, b: seq<u64>, c: nat)
    requires StoredCount(d.shards) == Ok(c) && c <= |b|
    ensures SaveSpec(d, b) == Ok(Disk(true, AppendAll(d.shards, b[c..])))
  {
  }

  /** Appending the rest of b to the layout of its prefix a gives the layout of b. */
  lemma LayoutExtends(a: seq<u64>, b: seq<u64>)
    requires a <= b
    ensures AppendAll(Layout(a), b[|a|..]) == Layout(b)
  {
    AppendAllConcat(map[], a, b[|a|..]);
    assert a + b[|a|..] == b;
  }

  /** Decoding the bytes of values that all have width w gives those values back. */
  lemma {:induction false} DecodeEncodeAll(s: seq<u64>, w: nat)
    requires 1 <= w <= 8
    requires forall x :: x in s ==> ByteWidth(x) == w
    ensures DecodeShard(EncodeAll(s, w), w) == s
  {
    if s != [] {
      var init, x := s[..|s| - 1], s[|s| - 1];
      assert s == init + [x];
      assert forall y :: y in init ==> y in s;
      DecodeEncodeAll(init, w);
      ByteWidthFits(x);
      DecodeEncode(x, w);
      DecodeShardAppend(EncodeAll(init, w), EncodeBE(x, w), w);
    }
  }

  lemma DecodeShardAppend(e0: seq<byte>, ex: seq<byte>, w: nat)
    requires 1 <= w <= 8 && |ex| == w
    ensures DecodeShard(e0 + ex, w) == DecodeShard(e0, w) + [DecodeBE(ex)]
  {
    assert (e0 + ex)[..|e0|] == e0;
    assert (e0 + ex)[|e0|..] == ex;
  }

  /**
   * Every entry of shard w of the layout has byte width exactly w: the shard
   * decodes to the values of ps of that width, in order.
   */
  lemma LayoutShard(ps: seq<u64>, w: nat)
    requires 1 <= w <= 8
    ensures DecodeShard(Get(Layout(ps), w), w) == OfWidth(ps, w)
    ensures forall x :: x in OfWidth(ps, w) ==> ByteWidth(x) == w
  {
    AppendAllAt(map[], ps, w);
    forall x | x in OfWidth(ps, w)
      ensures ByteWidth(x) == w
    {
      OfWidthMembers(ps, w, x);
    }
    DecodeEncodeAll(OfWidth(ps, w), w);
  }

  /** In an ascending sequence the values of width at most m are those of width below m followed by those of width m. */
  lemma {:induction false} WidthSplit(ps: seq<u64>, m: nat)
    requires Ascending(ps) && m >= 1
    ensures NarrowerThan(ps, m) == NarrowerThan(ps, m - 1) + OfWidth(ps, m)
  {
    if ps != [] {
      var init, x := ps[..|ps| - 1], ps[|ps| - 1];
      assert ps == init + [x];
      assert Ascending(init);
      WidthSplit(init, m);
      OfWidthSnoc(init, x, m);
      if ByteWidth(x) < m && OfWidth(init, m) != [] {
        var y := OfWidth(init, m)[0];
        OfWidthMembers(init, m, y);
        ByteWidthMonotone(y, x);
      }
    }
  }

  lemma {:induction false} NarrowerAll(ps: seq<u64>, m: nat)
    requires forall x :: x in ps ==> ByteWidth(x) <= m
    ensures NarrowerThan(ps, m) == ps
  {
    if ps != [] {
      var init := ps[..|ps| - 1];
      assert ps == init + [ps[|ps| - 1]];
      NarrowerAll(init, m);
    }
  }

  lemma {:induction false} NarrowerNone(ps: seq<u64>)
    ensures NarrowerThan(ps, 0) == []
  {
    if ps != [] {
      NarrowerNone(ps[..|ps| - 1]);
    }
  }

  /** Loading shards 1..m of the layout gives the values of width at most m, in order. */
  lemma {:induction false} LoadedLayout(ps: seq<u64>, m: nat)
    requires Ascending(ps) && WidthsGapless(ps)
    requires m <= 8 && forall v :: 1 <= v <= m ==> v in Layout(ps)
    ensures LoadedTo(Layout(ps), m) == NarrowerThan(ps, m)
  {
    if m == 0 {
      NarrowerNone(ps);
    } else {
      LoadedLayout(ps, m - 1);
      LayoutShard(ps, m);
      WidthSplit(ps, m);
    }
  }

  /** Loading the layout of an ascending sequence of values >= 2 reproduces it. */
  lemma LoadLayout(ps: seq<u64>)
    requires Ascending(ps) && WidthsGapless(ps)
    requires forall p :: p in ps ==> p >= 2
    ensures LoadSpec(Disk(true, Layout(ps)), []) == Ok(ps)
  {
    var k := LastWidth(ps);
    LayoutNoGaps(ps);
    RunEndFacts(Layout(ps), 1);
    LoadedLayout(ps, k);
    forall x | x in ps
      ensures ByteWidth(x) <= k
    {
      AscendingWidths(ps, x);
    }
    NarrowerAll(ps, k);
    assert [] + ps == ps;
  }

  /**
   * Round trip: saving an ascending sequence of values >= 2 whose widths skip
   * none into a store without a directory, then loading, gives the sequence back.
   */
  lemma SaveThenLoad(ps: seq<u64>)
    requires Ascending(ps) && WidthsGapless(ps)
    requires forall p :: p in ps ==> p >= 2
    ensures SaveSpec(EmptyDisk, ps) == Ok(Disk(true, Layout(ps)))
    ensures LoadSpec(SaveSpec(EmptyDisk, ps).value, []) == Ok(ps)
  {
    SaveExtends(EmptyDisk, [], ps);
    LoadLayout(ps);
  }
}
